=== FILE: README.md ===
# Magnetic circulation Hanoi — a Dafny model of the interaction and rule engine

The game is a Tower-of-Hanoi variant played with three rings (tori) on three
pillars. Each ring has a red face and a blue face. The player grabs a ring with
the pointer, lifts it to a float height above the pillars, carries it across,
and releases it. Every move flips the ring over. A move must go to the next
pillar clockwise, or back onto the ring's own pillar as a flip in place. A ring
may not go onto a smaller ring. The face a ring brings underneath may not have
the colour of the face on top of the ring it lands on ("colour repulsion"). A
legal move plays a flip animation and then a descent. An illegal one pauses,
slides the ring back horizontally, then vertically, and shows an error message
for a while. The game is won when all rings stand on the third pillar, largest
at the bottom.

This project models that core as pure functions over immutable data and proves
its properties with Dafny:

- `config.dfy` (`Config`): the game's constants.
- `geometry.dfy` (`Geometry`): vectors, rays, the ray/plane intersection,
  Python's float `% 360`, and NumPy's `isclose`.
- `highest.dfy` (`Highest`): selects the first highest ring. Both `max(...,
  key=...)` and the strict `>` scan keep the EARLIEST maximum.
- `sorting.dfy` (`Sorting`): Python's stable `sort(key=...)`, including
  `reverse=True`.
- `objects.dfy` (`Objects`): the ring and pillar records, the face colours, the
  three animation entry points, and the per-frame animation step.
- `utils.dfy` (`Utils`): the pillar lookup by proximity, and the win check.
- `scene.dfy` (`Scene`): the game state record and the starting stack.
- `picking.dfy` (`Picking`): finding the topmost pickable ring under the
  pointer.
- `rules.dfy` (`Rules`): the move verdict, the legality query with its
  diagnostics, and the landing height.
- `drag.dfy` (`Drag`): the two-phase drag controller and the placement.
- `app.dfy` (`App`): the left-button and motion handlers, the frame update, the
  render-time highlight and error message, the game invariant, and whole-game
  scenarios.

Modelling choices:

- Distances compared with `norm(...) < r` are compared squared, which is exact.
- The cosine easing curve is a parameter `ease`. Lemmas that depend on its shape
  assume only `EaseOk`: 0 maps to 0, 1 maps to 1, and [0, 1] maps into [0, 1].
- Ring identity (`is not`) is index inequality.
- The pointer ray is an input of each event.
- The printed diagnostics of the legality query are returned as a list of
  lines. This makes the silent (`check_only`) mode observable.

Behaviours of the program worth noting:

- The descent is timed from the moment the flip completes: the flip overwrites
  the descent start time (objects.py:124).
  `Objects.PlacementSequence` states the resulting timing for any schedule of
  frames (main.py:133-137 advances every ring once per frame).
- The legality query sees a ring as standing on a pillar within 0.9 of its
  centre. The landing height, the picking and the win check use 0.7.
- Reaching the float height in the lift phase only switches the drag to the
  horizontal phase; the ring is not raised to the float height in that call.
  A release straight afterwards neither places the ring (it is below the float
  height) nor puts it back (the phase is horizontal). The ring is left hanging
  where the lift left it (`App.ReleaseAfterSwitchLeavesRingHovering`).
- A release that never passed the drag threshold does not move the ring back.
  Nothing moved it, and the snap-back only happens for a drag.
- The "close to 180 degrees" test carries NumPy's default relative tolerance.
  The window is therefore 180 ± 5.0018.
- The win check compares each radius with NumPy's `isclose`: an absolute
  tolerance of 0.01 plus the default relative term, 1e-5 times the expected
  radius (utils.py:54). Two rings whose radii are that close pass in either
  order, so a slightly smaller ring may sit below a slightly larger one
  (`Utils.WinWithinTolerance`).
- Drawing a ring writes the drawn highlight back into the ring (objects.py:44).
  `App.Render` models this.

## Model

| member | source | states |
|---|---|---|
| Geometry.Mod360 | objects.py:92 | Python's float `angle % 360`: the result lies in [0, 360) and differs from the angle by a whole number of turns |
| Geometry.Mod360HalfTurn | game_state.py:228 | adding a half turn before reducing moves the residue by exactly 180, up when it was below 180 and down otherwise |
| Geometry.PlaneHit | game_state.py:126-133 | the ray meets the horizontal plane exactly when its vertical component exceeds 1e-6 in size; the hit lies on the ray's line and at the plane's height |
| Highest.FirstHighest | game_state.py:107-109 | a strict `>` scan over the selected entries gives -1 exactly when nothing is selected, otherwise the earliest selected entry that no selected entry exceeds |
| Sorting.SortBy | utils.py:48 | sort by key: the result is ordered by the key and is a permutation of the input |
| Sorting.InsertKeyRun | utils.py:48 | inserting into a sorted list places the new entry in front of the entries with the same key and leaves every other key's entries as they were |
| Sorting.SortByStable | utils.py:48 | the sort is stable: for every key value, the entries with that key appear in the result in their input order |
| Sorting.NonIncreasingPermutationUnique | utils.py:50 | two non-increasing arrangements of the same multiset of numbers are equal, so the sorted radii list is determined by the radii alone |
| Objects.NewTorus | objects.py:7-39 | a new ring stands at the given position with its radii, unflipped (angle 0), idle and not highlighted |
| Objects.NewPillar | objects.py:197-202 | a new pillar has the configured pillar height |
| Objects.EffectiveTopColor | objects.py:86-94 | the top face is blue exactly when the angle modulo 360 lies within 180 ± 5.0018, and red otherwise |
| Objects.EffectiveBottomColor | objects.py:96-104 | the bottom face always has the other colour, red exactly in that window |
| Objects.FlipSwapsFaces | objects.py:86-104 | a half-turn flip brings the current top colour underneath, whenever the angle is within tolerance of 0, 180 or 360 |
| Objects.SettledFlipSwapsFaces | objects.py:86-104 | for a ring resting at 0 or 180 degrees, the flip always brings its top colour underneath |
| Objects.HalfTurnOfSettled | game_state.py:271 | a half turn from a resting angle, reduced modulo 360, is the other resting angle |
| Objects.StartFlip | objects.py:177-181 | arms a flip from the current angle to the target, starting now; position and radii are kept |
| Objects.StartDescent | objects.py:184-187 | records a descent from the current height to the target, starting now; the state and the flip fields are kept |
| Objects.StartErrorRevert | objects.py:190-193 | enters the error pause now, with the revert target recorded; position and angle are kept |
| Objects.Progress | objects.py:111-112 | the elapsed fraction is capped at 1; it reaches 1 exactly when the duration has passed; it is not negative after the start |
| Objects.UpdateAnimation | objects.py:106-174 | one frame makes at most one allowed state transition; each phase animates only its own quantity; the recorded starts, initial values and targets are kept, except that a transition records the next phase's start and initial values; each phase ends exactly when its duration has passed, and then sets the exact final values |
| Objects.PlacementSequence | objects.py:109-135 | under any schedule of frames after a flip and descent armed together: frames before the flip's duration only turn the ring; the first frame after it starts the descent, timed from that frame; the ring comes to rest exactly when a later frame falls a full descent duration after it, at the landing height with the flip completed |
| Objects.ErrorRevertSequence | objects.py:137-174 | under any schedule of frames: the ring stays put during the pause, then moves back horizontally and reaches the original x and z exactly when the revert's duration has passed, then moves back vertically and comes to rest exactly when a later frame falls a further full duration after that, exactly at the original position, its angle untouched throughout |
| Objects.IdleFrames | objects.py:106-174 | frames leave an idle ring exactly as it is |
| Objects.FlipFrames | objects.py:109-116 | frames before the flip's duration has passed change only the angle |
| Objects.DescentFrames | objects.py:126-135 | frames during a descent change only the height; the ring rests exactly when some frame falls a full descent duration after the descent's start, and then at the target height |
| Objects.PauseFrames | objects.py:137-141 | frames before the error pause is over change nothing |
| Objects.RevertFrames | objects.py:143-151 | frames before the horizontal revert's duration has passed change only x and z |
| Objects.RevertYFrames | objects.py:162-174 | frames during the vertical revert change only the height; the ring rests exactly when some frame falls a full revert duration after that phase's start, and then at the target height |
| Objects.DescentStaysBetween | objects.py:126-135 | a descent in progress never overshoots its start or its target height |
| Objects.FlipStaysBetween | objects.py:109-116 | a flip in progress keeps its angle between the initial and the target angle |
| Objects.RevertStaysBetween | objects.py:143-151 | the horizontal part of a revert keeps x and z between the start and the target position |
| Objects.RevertYStaysBetween | objects.py:162-174 | the vertical part of a revert keeps the height between its start and its target |
| Objects.UpdateKeepsAngleInvariant | objects.py:109-124 | a frame keeps every ring at, or heading for, a resting angle of 0 or 180 |
| Objects.PlacementFlipKeepsAngleInvariant | game_state.py:271-273 | arming the placement flip on a ring at rest keeps that invariant |
| Utils.PillarIndexAt | utils.py:27-34 | the lookup gives the first pillar whose centre is strictly within the threshold, or -1 exactly when there is none |
| Utils.AtMostOneNearPillar | utils.py:27-34 | when pillar centres are at least twice the threshold apart, at most one pillar is near a point |
| Utils.SeparatedLookupIsOrderFree | utils.py:27-34 | with separated pillars, the lookup finds the pillar a point is near, whatever the list order |
| Utils.RingsOnPillar | utils.py:40-46 | the filter keeps every ring exactly when all rings stand on the target pillar, and then returns the list unchanged |
| Utils.CheckWin | utils.py:37-57 | a win implies every ring stands on the target pillar |
| Utils.WinWithinTolerance | utils.py:52-55 | a two-ring stack with radius 1.0 below radius 1.005 counts as a win: each ring's radius is within the 0.01 absolute tolerance of the expected largest-first radius at its place |
| Utils.NoWinBeyondTolerance | utils.py:52-55 | the same stack with radius 1.0 below radius 1.02 is not a win, since the radii differ by more than the tolerance |
| Utils.WinWhenLargestAtBottom | utils.py:37-57 | all rings on the target pillar, with no lower ring smaller than a higher one, is a win |
| Utils.WinMatchesExactly | utils.py:48-55 | when distinct radii differ by more than the tolerance, a win matches the radii bottom to top exactly against the descending list |
| Utils.WinIsCloseEverywhere | utils.py:40-55 | a win means each ring of the whole list, ordered by height, is within tolerance of the descending radius at the same place |
| Utils.WinRejectsMisorderedStack | utils.py:37-57 | with distinguishable radii, a stack with a smaller ring strictly below a larger one is not a win |
| Utils.WinIgnoresAnimation | utils.py:37-57 | the win check depends only on positions and outer radii, not on animation state, angles or highlights |
| Scene.StackFrom | game_state.py:53-64 | the stacked rings keep the given sizes at the pillar's position; the first rests at its inner radius, and each rests on the one below with no gap |
| Scene.CreateTori | game_state.py:45-67 | the starting rings are ordered by outer radius and stand on the first pillar, unflipped, idle and not highlighted |
| Scene.InitialStack | game_state.py:45-67 | concretely: radii 1.0, 1.2, 1.4 in list order, at heights 3.1, 2.0 and 0.7 |
| Scene.InitialState | game_state.py:10-32 | the game starts with nothing held, no moves counted, not won and no error message |
| Picking.FindTopmost | game_state.py:69-111 | the picked ring is idle, hit by the ray and not covered on its pillar, and no such ring is higher; on a tie the earliest is picked; -1 exactly when no ring qualifies |
| Rules.TopOn | game_state.py:225-238 | the top ring of the target pillar, other than the moving ring, or -1 exactly when that pillar holds no other ring |
| Rules.Judge | game_state.py:211-255 | the move is refused as not clockwise exactly when it goes neither back to the same pillar nor to the next one in cyclic order; a flip in place is never a size violation |
| Rules.JudgeMeaning | game_state.py:211-255 | a move in an allowed direction is legal exactly when the target's top ring (if any) is at least as large, except in a flip in place, and does not repel; the size and colour refusals occur exactly in the corresponding cases; an empty target accepts |
| Rules.SettledRepulsion | game_state.py:227-253 | for a ring resting at 0 or 180, colour repulsion means its top colour equals the target's top colour |
| Rules.InPlaceFlipOnlyColor | game_state.py:215-253 | a flip in place is refused only for colour repulsion, and exactly when the ring below repels |
| Rules.EqualRadiusPassesSize | game_state.py:240-245 | a ring of the same outer radius as the top ring passes the size rule, which is a strict `>` |
| Rules.JudgeIgnoresHighlight | game_state.py:211-255 | the verdict does not depend on the moving ring's highlight flag |
| Rules.IsMoveValid | game_state.py:211-255 | the query succeeds exactly for a legal verdict; a silent query or a legal move prints nothing; a refusal otherwise prints exactly the one non-empty line for its reason |
| Rules.LandingY | game_state.py:198-209 | a ring lands at its own inner radius on an empty pillar, otherwise above the top ring by the two inner radii plus the gap |
| Rules.LandsAboveOthers | game_state.py:198-209 | with non-negative radii, the landing height is at least the gap above every other ring on the target pillar |
| Drag.StartDragging | game_state.py:113-133 | a grab records the ring, its position and pillar, and restarts the drag in the lift phase; the offset keeps the grabbed point under the pointer, and is kept when the ray is parallel |
| Drag.StopDragging | game_state.py:135-146 | a release ends the drag; a dragged ring still in the lift phase goes back to its original position; the held ring loses its highlight; nothing else changes |
| Drag.IsDragActive | game_state.py:148-150 | the drag is active exactly when the squared pixel distance from the press position exceeds the threshold squared; in particular more than 5 pixels along one axis activates it and at most 3 along each axis does not |
| Drag.DragActiveIffFarther | game_state.py:148-150 | for the Euclidean distance d from the press position (d >= 0, d squared equal to the squared pixel distance), the drag is active exactly when d > 5 |
| Drag.DragThresholdExamples | game_state.py:148-150 | offsets (4, 0) and (4, 3) leave the drag inactive, offset (4, 4) activates it |
| Drag.CheckHighlight | game_state.py:185-196 | afterwards the held ring is lit exactly when dropping it where it is would be accepted; nothing else changes |
| Drag.HighlightKeepsDropLegality | game_state.py:185-196 | lighting or unlighting the held ring does not change whether dropping it where it is would be accepted |
| Drag.UpdateDragged | game_state.py:152-183 | in the lift phase the ring stays over its original spot and at least at its original height, below the float height and unlit, and reaching the float height only switches phase; in the horizontal phase it is pinned to the float height, follows the ray plus offset, and is lit exactly when a drop would be legal |
| Drag.LiftRate | game_state.py:156-170 | in the lift phase, twenty pixels of upward pointer travel raise the ring by one unit while it stays below the float height |
| Drag.LiftIsAdditive | game_state.py:156-170 | two upward moves in the lift phase give exactly the state one move over the same total travel gives |
| Drag.LiftReachesFloat | game_state.py:159-164 | a move that would take the ring to or past the float height only switches to the horizontal phase and moves no ring |
| Drag.ArmLanding | game_state.py:264-273 | a landing snaps the ring over the pillar at its current height and arms the half-turn flip and the descent together |
| Drag.PlaceTorus | game_state.py:257-280 | a legal drop arms the landing at the computed height and counts the move; an illegal one arms the error sequence towards the original position and raises the message now; no other ring changes |
| Drag.PlaceDiagnostics | game_state.py:221-252 | a drop over a pillar that is refused prints exactly its reason; other drops print nothing |
| Drag.StartDraggingEstablishesLiftInv | game_state.py:113-124 | right after a grab the ring stands over the spot it was grabbed from |
| Drag.UpdateDraggedKeepsLiftInv | game_state.py:158-170 | the lift phase keeps the ring over its original spot and not below its original height |
| Drag.AbortedLiftRestores | game_state.py:139-143 | releasing a drag still in the lift phase puts the ring back exactly where it was, unlit |
| Drag.LegalDropLands | game_state.py:257-275 | once a legal drop's ring has come to rest under any schedule of frames, it is over the target pillar at the landing height, flipped by half a turn, on that pillar and above all its other rings |
| Drag.LegalDropAnimates | game_state.py:257-275 | under any schedule of frames after a legal drop, the ring comes to rest exactly when a frame falls a full descent duration after the frame that ended the flip, and then it is over the target pillar at the landing height with its angle turned by half a turn |
| Drag.IllegalDropReturns | game_state.py:276-280 | the move is not counted and the error message is raised at the drop; under any schedule of frames the ring comes to rest exactly when a frame falls a full revert duration after the horizontal revert ended, and then it is exactly at its original position; its angle is unchanged throughout |
| App.HandleMouseDown | main.py:65-86 | a left press before the win records the press position; when the ray hits a pickable ring it starts dragging, through the grab, the highest pickable ring (the earliest on a tie); when none is hit nothing else changes; other buttons and a won game change nothing |
| App.HandleMouseUp | main.py:97-107 | a left release ends the drag; it counts a move exactly when the ring was dragged to the float height and the drop is legal |
| App.HandleMouseMotion | main.py:112-122 | with a ring held and the threshold passed, the motion marks the drag and moves the ring; otherwise nothing changes |
| App.Frame | main.py:133-142 | a frame advances every ring's animation; the game becomes won exactly when the win check passes, and once won stays won |
| App.Render | main.py:162-166 | after drawing, each ring's highlight flag is exactly whether it was drawn lit; nothing else changes |
| App.RenderIsIdempotent | main.py:162-166 | drawing twice gives the same picture and flags as drawing once |
| App.RenderClearsStaleHighlight | main.py:164-165 | a ring that is neither held nor flipping or descending is drawn unlit |
| App.ErrorMessageWindow | main.py:176 | after an illegal drop, the message is shown exactly until one message duration has passed |
| App.HighlightedWhilePlacing | main.py:164-165 | a legally dropped ring is drawn lit while it animates; no other ring's drawing changes |
| App.InitialStateInv | game_state.py:10-32 | the starting state satisfies the game invariant |
| App.MouseDownKeepsInv | main.py:65-86 | a press keeps the game invariant |
| App.MotionKeepsInv | main.py:112-122 | a pointer move keeps the game invariant |
| App.MouseUpKeepsInv | main.py:97-107 | a release keeps the game invariant |
| App.PlaceKeepsAngles | game_state.py:257-280 | a drop, legal or not, leaves every ring at, or heading for, a resting angle |
| App.StopKeepsInv | game_state.py:135-146 | ending a drag keeps the game invariant for any state whose rings are at or heading for a resting angle |
| App.FrameKeepsInv | main.py:133-142 | a frame keeps the game invariant |
| App.ArmLandingKeepsAngleInvariant | game_state.py:268-273 | arming the landing on a ring at rest keeps it at, or heading for, a resting angle |
| App.ReleaseAfterSwitchLeavesRingHovering | game_state.py:159-170 | a release right after the lift crosses the float height leaves the ring idle where it was, below the float height: neither placed nor put back |
| App.SameFaceUpRepels | game_state.py:247-253 | two resting rings with the same face up repel |
| App.OppositeFaceUpAttracts | game_state.py:247-253 | two resting rings with opposite faces up do not repel |
| App.InitialRingsOnFirstPillar | game_state.py:45-67 | with three pillars whose occupancy discs do not overlap, every starting ring stands on the first pillar |
| App.InitialStackLargestAtBottom | game_state.py:45-67 | in the starting stack no lower ring is smaller than a higher one |
| App.InitialStateNotWon | utils.py:37-46 | the starting position is not a win |
| App.InitialStackIsOrdered | game_state.py:45-67 | the starting stack is ordered largest at the bottom, so it would pass the win check on the first pillar |
| App.OpeningMoves | game_state.py:215-234 | from the start, the smallest ring may go to the empty next pillar, and is refused as not clockwise when it skips to the pillar after |
| App.OpeningHoldFromStart | game_state.py:45-67 | the opening scenario is the starting position with only the smallest ring moved |
| App.OpeningHoldIsLegal | game_state.py:198-255 | in the opening scenario the drop is over the second pillar, legal, and lands at the ring's inner radius 0.5 |
| App.FirstMoveScenario | main.py:97-107 | the opening move, released with the left button, passes the inclusive release height check and is accepted: the move count becomes 1 and dragging stops; under any schedule of frames in which a frame falls a full descent duration after the frame that ended the flip, the ring ends idle on the second pillar at height 0.5, upside down |
| App.SlideKeepsReleasable | main.py:103 | a ring carried in the horizontal phase is always at the float height, so releasing it after any slide step places it (the height check is inclusive) |

## Left out

- Rendering: the OpenGL drawing of rings and pillars, the text overlay (`draw_text`), the move counter and the win banner. Only the highlight choice, its write-back, and the error-message timing are modelled.
- The screen-to-ray unprojection (`get_mouse_ray`): it needs the camera matrices. The ray is an input of each handler.
- The pillar layout (`_create_pillars`): it needs cosine and sine. Pillars are a parameter; the scenarios assume three pillars whose occupancy discs do not overlap.
- The cosine easing curve: a parameter; see `EaseOk`.
- The camera controls on the right button, the wheel, and right-drag motion: they touch only the camera, so the model leaves the game state unchanged for them.
- The clock (`time.time`) and the event loop: times are parameters, and a run of frames is any sequence of frame times (`Objects.Frames`).
- Console output other than the legality diagnostics: the debug line on a grab and the win line are not modelled.
- Pillar colours, the darkening factor and the other display constants: they only affect drawing.
- Floating-point rounding: all arithmetic is over the reals.
- Drag.PlaceTorus: the diagnostic line printed during the drop is stated separately, by `Drag.PlaceDiagnostics`.
- Utils.WinRejectsMisorderedStack: it is stated only for radii that the 0.01 tolerance can tell apart (`RadiiDistinguishable`). Nearly equal radii may be accepted in either order, as the source's tolerance allows.
- Picking.FindTopmost: the hit test is the code's bounding sphere; the exact torus surface is not modelled.

=== FILE: app.dfy ===
/**
  The application layer: the left-button press and release handlers, the
  pointer-motion handler, the per-frame update (animations and the win check)
  and the two render-time predicates. The pointer ray of each event is an
  input; the camera controls on the other buttons leave the game state alone.
 */
module App {
  import opened Config
  import opened Geometry
  import opened Objects
  import opened Sorting
  import opened Utils
  import opened Scene
  import opened Picking
  import opened Rules
  import opened Drag

  /** The button number of the left button; every other button steers the camera. */
  const LeftButton: int := 1

  /**
    A button press at `pos`, whose pointer ray is `ray`. A left press before
    the game is won records the press position and, when the ray hits a
    pickable ring, starts dragging the highest such ring (the earliest on a tie).
   */
  function HandleMouseDown(g: GameState, button: int, pos: Pixel, ray: Ray): (r: GameState)
    ensures button != LeftButton || g.won ==> r == g
    ensures button == LeftButton && !g.won ==>
              && r.mouseDown == pos && r.rings == g.rings && r.pillars == g.pillars
              && r.moveCount == g.moveCount && r.won == g.won && r.dragging == g.dragging
              && (r.dragged == g.dragged || (0 <= r.dragged < |g.rings| && Pickable(g.rings, g.pillars, ray, r.dragged)))
              && (r.dragged != g.dragged ==>
                    forall i :: 0 <= i < |g.rings| && Pickable(g.rings, g.pillars, ray, i) ==>
                      g.rings[i].pos.y <= g.rings[r.dragged].pos.y)
              && ((forall i :: 0 <= i < |g.rings| ==> !Pickable(g.rings, g.pillars, ray, i)) ==> r == g.(mouseDown := pos))
    ensures button == LeftButton && !g.won && (exists i :: 0 <= i < |g.rings| && Pickable(g.rings, g.pillars, ray, i)) ==>
              && 0 <= r.dragged < |g.rings| && Pickable(g.rings, g.pillars, ray, r.dragged)
              && (forall i :: 0 <= i < |g.rings| && Pickable(g.rings, g.pillars, ray, i) ==>
                    g.rings[i].pos.y <= g.rings[r.dragged].pos.y)
              && (forall i :: 0 <= i < r.dragged && Pickable(g.rings, g.pillars, ray, i) ==>
                    g.rings[i].pos.y < g.rings[r.dragged].pos.y)
              && r == StartDragging(g.(mouseDown := pos), r.dragged, ray)
  {
    if button != LeftButton || g.won then g
    else
      var g1 := g.(mouseDown := pos);
      var k := FindTopmost(g.rings, g.pillars, ray);
      if k != -1 then StartDragging(g1, k, ray) else g1
  }

  /** Whether a left release drops the held ring: it was dragged and is at or above the float height. */
  predicate ReleasePlaces(g: GameState)
    requires DragIndexOk(g)
  {
    g.dragged != -1 && g.dragging && g.rings[g.dragged].pos.y >= FloatHeight
  }

  /**
    A button release at time `now`. A left release drops the held ring when it
    has been dragged up to the float height, and then ends the drag in every
    case.
   */
  function HandleMouseUp(g: GameState, button: int, now: real): (r: GameState)
    requires DragIndexOk(g)
    ensures button != LeftButton ==> r == g
    ensures button == LeftButton ==> r.dragged == -1 && !r.dragging && |r.rings| == |g.rings|
    ensures button == LeftButton ==>
              r.moveCount == (if ReleasePlaces(g) && DropIsLegal(g) then g.moveCount + 1 else g.moveCount)
    ensures button == LeftButton ==> r.won == g.won && r.pillars == g.pillars
    ensures button == LeftButton && ReleasePlaces(g) ==> r.rings == StopDragging(PlaceTorus(g, now)).rings
    ensures button == LeftButton && !ReleasePlaces(g) ==> r == StopDragging(g)
  {
    if button != LeftButton then g
    else
      var g1 := if ReleasePlaces(g) then PlaceTorus(g, now) else g;
      StopDragging(g1)
  }

  /**
    A pointer move to `pos`, whose ray is `ray`. Once the pointer has left the
    press point by more than the drag threshold, a held ring is being dragged
    and follows the pointer.
   */
  function HandleMouseMotion(g: GameState, pos: Pixel, ray: Ray): (r: GameState)
    requires DragIndexOk(g)
    ensures g.dragged == -1 || !IsDragActive(g, pos) ==> r == g
    ensures g.dragged != -1 && IsDragActive(g, pos) ==>
              r.dragging && r.lastMouse == pos && r == UpdateDragged(g.(dragging := true), ray, pos)
    ensures r.dragged == g.dragged && |r.rings| == |g.rings| && r.moveCount == g.moveCount && r.won == g.won
  {
    if g.dragged != -1 && IsDragActive(g, pos) then
      UpdateDragged(g.(dragging := true), ray, pos)
    else
      g
  }

  /** Every ring's animation advanced to `now`. */
  function AdvanceAll(rings: seq<Torus>, now: real, ease: real -> real): (r: seq<Torus>)
    ensures |r| == |rings|
    ensures forall i :: 0 <= i < |rings| ==> r[i] == UpdateAnimation(rings[i], now, ease)
  {
    seq(|rings|, i requires 0 <= i < |rings| => UpdateAnimation(rings[i], now, ease))
  }

  /**
    One frame at time `now`: every ring's animation advances, then the game is
    declared won when all rings stand on the winning pillar stacked by size.
    Once won it stays won.
   */
  function Frame(g: GameState, now: real, ease: real -> real): (r: GameState)
    ensures r == g.(rings := r.rings, won := r.won)
    ensures r.rings == AdvanceAll(g.rings, now, ease)
    ensures g.won ==> r.won
    ensures r.won && !g.won ==> |RingsOnPillar(r.rings, g.pillars, WinPillarIndex)| == |r.rings|
    ensures !g.won ==> (r.won <==> CheckWin(r.rings, g.pillars, WinPillarIndex))
  {
    var rings := AdvanceAll(g.rings, now, ease);
    var won := if !g.won && CheckWin(rings, g.pillars, WinPillarIndex) then true else g.won;
    g.(rings := rings, won := won)
  }

  /** A ring is drawn highlighted while it is the held ring and lit, or while it flips or descends. */
  predicate RenderHighlighted(g: GameState, i: int)
    requires 0 <= i < |g.rings|
  {
    (i == g.dragged && g.rings[i].highlighted) || g.rings[i].state in {Flipping, Descending}
  }

  /**
    Drawing a frame writes the drawn highlight back into every ring: afterwards
    a ring's highlight flag says exactly whether it was drawn lit. Nothing else
    changes.
   */
  function Render(g: GameState): (r: GameState)
    ensures |r.rings| == |g.rings| && r == g.(rings := r.rings)
    ensures forall i :: 0 <= i < |g.rings| ==>
              r.rings[i] == g.rings[i].(highlighted := r.rings[i].highlighted) &&
              r.rings[i].highlighted == RenderHighlighted(g, i)
  {
    g.(rings := seq(|g.rings|, i requires 0 <= i < |g.rings| => g.rings[i].(highlighted := RenderHighlighted(g, i))))
  }

  /** Drawing twice in a row draws the same picture and leaves the same flags. */
  lemma RenderIsIdempotent(g: GameState)
    ensures Render(Render(g)) == Render(g)
    ensures forall i :: 0 <= i < |g.rings| ==> RenderHighlighted(Render(g), i) == RenderHighlighted(g, i)
  {
    var r := Render(g);
    forall i | 0 <= i < |g.rings| ensures RenderHighlighted(r, i) == RenderHighlighted(g, i) {
      assert r.rings[i].state == g.rings[i].state;
    }
    assert Render(r).rings == r.rings;
  }

  /** A ring that is neither held nor flipping or descending is drawn unlit, whatever its flag said. */
  lemma RenderClearsStaleHighlight(g: GameState, i: int)
    requires 0 <= i < |g.rings| && i != g.dragged && g.rings[i].state !in {Flipping, Descending}
    ensures !Render(g).rings[i].highlighted
  {
  }

  /** The error message is on screen for the message duration after an illegal drop. */
  predicate ErrorMessageShown(g: GameState, now: real) {
    g.showError && now - g.errorStart < ErrorMessageDuration
  }

  /** The message shows from the drop until one message duration has passed, and never after. */
  lemma ErrorMessageWindow(g: GameState, now: real, later: real)
    requires 0 <= g.dragged < |g.rings|
    requires !DropIsLegal(g)
    ensures ErrorMessageShown(PlaceTorus(g, now), later) <==> later < now + ErrorMessageDuration
  {
  }

  /** Exactly the animated placements and the lit held ring are drawn highlighted. */
  lemma HighlightedWhilePlacing(g: GameState, now: real, i: int)
    requires 0 <= g.dragged < |g.rings| && DropIsLegal(g) && 0 <= i < |g.rings|
    ensures RenderHighlighted(PlaceTorus(g, now), g.dragged)
    ensures i != g.dragged ==> (RenderHighlighted(PlaceTorus(g, now), i) <==> RenderHighlighted(g, i))
  {
  }

  // ---------------------------------------------------------------- the game invariant

  /**
    What holds between events: the held ring, if any, is a real ring at rest;
    every ring is at or heading for a settled angle; a ring in the lift phase
    stands over the spot it was picked up from; the move counter is not
    negative.
   */
  predicate GameInv(g: GameState) {
    && DragIndexOk(g)
    && (g.dragged != -1 ==> g.rings[g.dragged].state == Idle)
    && (forall i :: 0 <= i < |g.rings| ==> AngleInvariant(g.rings[i]))
    && LiftInv(g)
    && g.moveCount >= 0
  }

  lemma InitialStateInv(pillars: seq<Pillar>)
    requires |pillars| > 0
    ensures GameInv(InitialState(pillars))
  {
    var rings := InitialState(pillars).rings;
    forall i | 0 <= i < |rings|
      ensures AngleInvariant(rings[i])
    {
      assert FreshAt(rings[i], pillars[0].x, pillars[0].z);
    }
  }

  lemma MouseDownKeepsInv(g: GameState, button: int, pos: Pixel, ray: Ray)
    requires GameInv(g)
    ensures GameInv(HandleMouseDown(g, button, pos, ray))
  {
    if button == LeftButton && !g.won {
      var k := FindTopmost(g.rings, g.pillars, ray);
      if k != -1 {
        StartDraggingEstablishesLiftInv(g.(mouseDown := pos), k, ray);
      }
    }
  }

  lemma MotionKeepsInv(g: GameState, pos: Pixel, ray: Ray)
    requires GameInv(g)
    ensures GameInv(HandleMouseMotion(g, pos, ray))
  {
    if g.dragged != -1 && IsDragActive(g, pos) {
      UpdateDraggedKeepsLiftInv(g.(dragging := true), ray, pos);
    }
  }

  /** Arming a landing on a ring at rest keeps the resting-angle invariant. */
  lemma ArmLandingKeepsAngleInvariant(t: Torus, p: Pillar, now: real, landingY: real)
    requires AngleInvariant(t) && t.state != Flipping
    ensures AngleInvariant(ArmLanding(t, p, now, landingY))
  {
    var snapped := t.(pos := Vec3(p.x, t.pos.y, p.z));
    PlacementFlipKeepsAngleInvariant(snapped, now, landingY);
  }

  lemma MouseUpKeepsInv(g: GameState, button: int, now: real)
    requires GameInv(g)
    ensures GameInv(HandleMouseUp(g, button, now))
  {
    if button == LeftButton {
      var g1 := if ReleasePlaces(g) then PlaceTorus(g, now) else g;
      if ReleasePlaces(g) {
        PlaceKeepsAngles(g, now);
      }
      StopKeepsInv(g1);
    }
  }

  /** Ending the drag keeps the invariant of any state whose rings have settled angles. */
  lemma StopKeepsInv(g: GameState)
    requires DragIndexOk(g) && g.moveCount >= 0
    requires forall i :: 0 <= i < |g.rings| ==> AngleInvariant(g.rings[i])
    ensures GameInv(StopDragging(g))
  {
    var r := StopDragging(g);
    forall i | 0 <= i < |r.rings|
      ensures AngleInvariant(r.rings[i])
    {
      if i != g.dragged {
        assert r.rings[i] == g.rings[i];
      }
    }
  }

  /** A drop, legal or not, leaves every ring's angle settled. */
  lemma PlaceKeepsAngles(g: GameState, now: real)
    requires GameInv(g) && g.dragged != -1
    ensures forall i :: 0 <= i < |g.rings| ==> AngleInvariant(PlaceTorus(g, now).rings[i])
  {
    var d := g.dragged;
    var placed := PlaceTorus(g, now);
    if DropIsLegal(g) {
      var target := DropTarget(g);
      ArmLandingKeepsAngleInvariant(g.rings[d], g.pillars[target], now, LandingY(g.rings, g.pillars, d, target));
    }
    assert AngleInvariant(placed.rings[d]);
    forall i | 0 <= i < |g.rings|
      ensures AngleInvariant(placed.rings[i])
    {
      if i != d {
        assert placed.rings[i] == g.rings[i];
      }
    }
  }

  lemma FrameKeepsInv(g: GameState, now: real, ease: real -> real)
    requires GameInv(g)
    ensures GameInv(Frame(g, now, ease))
  {
    var r := Frame(g, now, ease);
    forall i | 0 <= i < |g.rings|
      ensures AngleInvariant(r.rings[i])
    {
      UpdateKeepsAngleInvariant(g.rings[i], now, ease);
    }
  }

  // ---------------------------------------------------------------- behaviours of the whole

  /**
    Releasing the button right after the lift reached the float height leaves
    the ring hanging in the air: the motion that crossed the float height only
    switched to the horizontal phase without raising the ring, so the release
    does not drop it, and because the phase is horizontal the ring is not put
    back either. It stays, at rest, where the lift left it.
   */
  lemma ReleaseAfterSwitchLeavesRingHovering(g: GameState, pos: Pixel, ray: Ray, now: real)
    requires GameInv(g) && g.dragged != -1 && !g.horizontal
    requires g.rings[g.dragged].pos.y < FloatHeight
    requires IsDragActive(g, pos)
    requires g.rings[g.dragged].pos.y + ((g.lastMouse.y - pos.y) as real) * LiftSensitivity >= FloatHeight
    ensures
      var moved := HandleMouseMotion(g, pos, ray);
      var released := HandleMouseUp(moved, LeftButton, now);
      var before, after := g.rings[g.dragged], released.rings[g.dragged];
      && moved.horizontal
      && after.pos == before.pos && after.pos.y < FloatHeight
      && after.state == Idle
      && released.moveCount == g.moveCount && released.showError == g.showError
  {
    var moved := HandleMouseMotion(g, pos, ray);
    assert moved.rings == g.rings;
  }

  /** Two rings at rest with the same face up repel: the flipped ring would bring that colour underneath. */
  lemma SameFaceUpRepels(mover: Torus, top: Torus)
    requires Settled(mover.flipAngle) && mover.flipAngle == top.flipAngle
    ensures Repels(mover, top)
  {
    SettledRepulsion(mover, top);
  }

  /** Two rings at rest with opposite faces up do not repel. */
  lemma OppositeFaceUpAttracts(mover: Torus, top: Torus)
    requires Settled(mover.flipAngle) && Settled(top.flipAngle) && mover.flipAngle != top.flipAngle
    ensures !Repels(mover, top)
  {
    SettledRepulsion(mover, top);
    Mod360OfResidue(mover.flipAngle);
    Mod360OfResidue(top.flipAngle);
  }

  /** Pillars laid out so that the two occupancy discs in use do not overlap. */
  ghost predicate Layout(pillars: seq<Pillar>) {
    |pillars| == 3 && Separated(pillars, OccupancyThreshold) && Separated(pillars, LegalityThreshold)
  }

  /** In the starting position every ring stands on the first pillar. */
  lemma InitialRingsOnFirstPillar(pillars: seq<Pillar>)
    requires Layout(pillars)
    ensures forall i :: 0 <= i < |CreateTori(pillars)| ==> RingPillar(CreateTori(pillars)[i], pillars, OccupancyThreshold) == 0
  {
    var p := pillars[0];
    assert DistSqXZ(p.x, p.z, p.x, p.z) == 0.0;
    SeparatedLookupIsOrderFree(pillars, OccupancyThreshold, p.x, p.z, 0);
  }

  /** The starting position is not a win: every ring stands on the first pillar, not the winning one. */
  lemma InitialStateNotWon(pillars: seq<Pillar>)
    requires Layout(pillars)
    ensures !CheckWin(CreateTori(pillars), pillars, WinPillarIndex)
  {
    InitialRingsOnFirstPillar(pillars);
  }

  /** Three rings stacked with strictly smaller rings strictly higher have the largest at the bottom. */
  lemma ThreeLargestAtBottom(top: Torus, middle: Torus, bottom: Torus)
    requires top.pos.y > middle.pos.y > bottom.pos.y
    requires top.outer <= middle.outer <= bottom.outer
    ensures LargestAtBottom([top, middle, bottom])
  {
  }

  lemma InitialStackLargestAtBottom(pillars: seq<Pillar>)
    requires |pillars| > 0
    ensures LargestAtBottom(CreateTori(pillars))
  {
    InitialStack(pillars);
    var px, pz := pillars[0].x, pillars[0].z;
    ThreeLargestAtBottom(NewTorus(0.5, 1.0, Vec3(px, 3.1, pz)), NewTorus(0.6, 1.2, Vec3(px, 2.0, pz)),
                         NewTorus(0.7, 1.4, Vec3(px, 0.7, pz)));
  }

  /** The starting stack itself is correctly ordered: it would count as a win on the first pillar. */
  lemma InitialStackIsOrdered(pillars: seq<Pillar>)
    requires Layout(pillars)
    ensures CheckWin(CreateTori(pillars), pillars, 0)
  {
    InitialRingsOnFirstPillar(pillars);
    InitialStackLargestAtBottom(pillars);
    WinWhenLargestAtBottom(CreateTori(pillars), pillars, 0);
  }

  /**
    The opening moves from the first pillar, with the smallest ring held over
    another pillar: to the next pillar (empty) it is legal, to the pillar after
    that it is refused as not clockwise.
   */
  lemma OpeningMoves(pillars: seq<Pillar>, target: int)
    requires Layout(pillars) && (target == 1 || target == 2)
    ensures
      var rings := CreateTori(pillars);
      var held := rings[0 := rings[0].(pos := Vec3(pillars[target].x, FloatHeight, pillars[target].z))];
      Judge(held, pillars, 0, 0, target) == if target == 1 then Legal else NotClockwise
  {
    var rings := CreateTori(pillars);
    var held := rings[0 := rings[0].(pos := Vec3(pillars[target].x, FloatHeight, pillars[target].z))];
    if target == 1 {
      var p := pillars[0];
      assert DistSqXZ(p.x, p.z, p.x, p.z) == 0.0;
      SeparatedLookupIsOrderFree(pillars, LegalityThreshold, p.x, p.z, 0);
      forall j | 0 <= j < |held| && j != 0
        ensures RingPillar(held[j], pillars, LegalityThreshold) == 0
      {
        assert held[j] == rings[j];
        assert FreshAt(rings[j], p.x, p.z);
      }
      JudgeMeaning(held, pillars, 0, 0, target);
    }
  }

  /**
    The starting position with the smallest ring lifted to the float height
    over the second pillar, held and dragged from the first pillar.
   */
  function OpeningHold(pillars: seq<Pillar>): GameState
    requires |pillars| >= 2
  {
    var a, b := pillars[0], pillars[1];
    var rings := [NewTorus(0.5, 1.0, Vec3(b.x, FloatHeight, b.z)),
                  NewTorus(0.6, 1.2, Vec3(a.x, 2.0, a.z)),
                  NewTorus(0.7, 1.4, Vec3(a.x, 0.7, a.z))];
    GameState(pillars, rings, true, 0, Origin, Pixel(0, 0), Vec3(a.x, 3.1, a.z), 0,
              Pixel(0, 0), true, 0, false, false, 0.0)
  }

  lemma SmallestLifted(a: Pillar, b: Pillar)
    ensures
      var start := [NewTorus(0.5, 1.0, Vec3(a.x, 3.1, a.z)),
                    NewTorus(0.6, 1.2, Vec3(a.x, 2.0, a.z)),
                    NewTorus(0.7, 1.4, Vec3(a.x, 0.7, a.z))];
      start[0 := start[0].(pos := Vec3(b.x, FloatHeight, b.z))] ==
        [NewTorus(0.5, 1.0, Vec3(b.x, FloatHeight, b.z)), start[1], start[2]]
  {
    var start := [NewTorus(0.5, 1.0, Vec3(a.x, 3.1, a.z)),
                  NewTorus(0.6, 1.2, Vec3(a.x, 2.0, a.z)),
                  NewTorus(0.7, 1.4, Vec3(a.x, 0.7, a.z))];
    var lifted := NewTorus(0.5, 1.0, Vec3(b.x, FloatHeight, b.z));
    assert start[0].(pos := Vec3(b.x, FloatHeight, b.z)) == lifted;
  }

  /** It is indeed the starting position with only the smallest ring moved. */
  lemma OpeningHoldFromStart(pillars: seq<Pillar>)
    requires |pillars| >= 2
    ensures
      var start, g := CreateTori(pillars), OpeningHold(pillars);
      && g.rings == start[0 := start[0].(pos := Vec3(pillars[1].x, FloatHeight, pillars[1].z))]
      && g.originalPos == start[0].pos
  {
    InitialStack(pillars);
    SmallestLifted(pillars[0], pillars[1]);
  }

  /** Dropping there is legal, onto an empty pillar, so the ring will land at its own inner radius. */
  lemma OpeningHoldIsLegal(pillars: seq<Pillar>)
    requires Layout(pillars)
    ensures
      var g := OpeningHold(pillars);
      && DropTarget(g) == 1 && DropIsLegal(g)
      && LandingY(g.rings, g.pillars, 0, 1) == 0.5
  {
    var g := OpeningHold(pillars);
    var a, b := pillars[0], pillars[1];
    assert DistSqXZ(a.x, a.z, a.x, a.z) == 0.0;
    assert DistSqXZ(b.x, b.z, b.x, b.z) == 0.0;
    SeparatedLookupIsOrderFree(pillars, OccupancyThreshold, b.x, b.z, 1);
    SeparatedLookupIsOrderFree(pillars, OccupancyThreshold, a.x, a.z, 0);
    SeparatedLookupIsOrderFree(pillars, LegalityThreshold, a.x, a.z, 0);
    assert forall j :: !OtherOn(g.rings, pillars, 0, 1, OccupancyThreshold, j);
    assert forall j :: !OtherOn(g.rings, pillars, 0, 1, LegalityThreshold, j);
    JudgeMeaning(g.rings, pillars, 0, 0, 1);
  }

  /**
    The opening move played out: the smallest ring, carried from the first
    pillar to the float height over the second one and released with the left
    button, passes the release gate and is accepted
    and counted; under any frame schedule in which a frame falls a full
    descent duration after the frame that ended the flip, it comes to rest
    idle on the second pillar at its own inner radius, turned upside down.
   */
  lemma {:induction false} FirstMoveScenario(pillars: seq<Pillar>, now0: real, flipping: seq<real>, finish: real,
                          descending: seq<real>, ease: real -> real)
    requires Layout(pillars)
    requires forall i :: 0 <= i < |flipping| ==> flipping[i] - now0 < FlipDuration
    requires finish - now0 >= FlipDuration
    requires exists i :: 0 <= i < |descending| && descending[i] - finish >= DescentDuration
    ensures
      var b := pillars[1];
      var released := HandleMouseUp(OpeningHold(pillars), LeftButton, now0);
      var landed := Frames(released.rings[0], flipping + [finish] + descending, ease);
      && ReleasePlaces(OpeningHold(pillars))
      && released.moveCount == 1 && released.dragged == -1 && !released.dragging
      && landed.state == Idle && landed.pos == Vec3(b.x, 0.5, b.z) && landed.flipAngle == 180.0
  {
    var g := OpeningHold(pillars);
    OpeningHoldIsLegal(pillars);
    assert g.dragged == 0 && g.pillars == pillars && g.moveCount == 0 && g.horizontal;
    assert ReleasePlaces(g);
    var placed := PlaceTorus(g, now0);
    assert placed.moveCount == 1;
    assert !placed.rings[0].highlighted;
    var released := HandleMouseUp(g, LeftButton, now0);
    assert released.rings[0] == placed.rings[0];
    LegalDropAnimates(g, now0, flipping, finish, descending, ease);
    var landed := Frames(placed.rings[0], flipping + [finish] + descending, ease);
    assert landed.pos == Vec3(pillars[1].x, 0.5, pillars[1].z);
    HeldRingTurnsOver(pillars);
  }

  /**
    A ring carried in the horizontal phase sits exactly at the float height, so
    releasing it after any slide step drops it: the release gate is inclusive.
   */
  lemma SlideKeepsReleasable(g: GameState, ray: Ray, mouse: Pixel)
    requires 0 <= g.dragged < |g.rings| && g.dragging && g.horizontal
    ensures ReleasePlaces(UpdateDragged(g, ray, mouse))
  {
  }


  /** The held ring of the opening starts unflipped, so one flip turns it to 180 degrees. */
  lemma HeldRingTurnsOver(pillars: seq<Pillar>)
    requires |pillars| >= 2
    ensures HalfTurned(OpeningHold(pillars).rings[0].flipAngle) == 180.0
  {
    assert OpeningHold(pillars).rings[0].flipAngle == 0.0;
    Mod360OfResidue(180.0);
  }
}

=== FILE: config.dfy ===
/** Tunable constants of the puzzle (the configuration file of the game). */
module Config {

  /** Clearance left between a landed ring and the ring it rests on. */
  const Epsilon: real := 0.02
  /** How far (in degrees) a flip angle may be from 180 and still count as "upside down". */
  const AngleTolerance: real := 5.0

  /** Durations of the animation phases and of the error message, in seconds. */
  const FlipDuration: real := 0.3
  const DescentDuration: real := 0.3
  const ErrorMessageDuration: real := 1.0
  const ErrorPauseDuration: real := 1.0
  const RevertAnimationDuration: real := 0.3

  /** Pointer travel, in pixels, that turns a press into a drag. */
  const DragThreshold: int := 5
  /** Height gained per pixel of upward pointer travel during the lift phase. */
  const LiftSensitivity: real := 0.05
  const FloatHeightOffset: real := 1.0

  const PillarRadius: real := 6.0
  const PillarHeight: real := 5.0
  /** The fixed height at which a lifted ring travels between pillars. */
  const FloatHeight: real := PillarHeight + FloatHeightOffset

  /** Ring size classes as (inner radius, outer radius). */
  const TorusSizes: seq<(real, real)> := [(0.5, 1.0), (0.6, 1.2), (0.7, 1.4)]

  /** All rings must end on pillar C to win. */
  const WinPillarIndex: int := 2

  const PillarLabels: seq<string> := ["A", "B", "C"]
  const ErrorMessageText: string := "Illegal Operation"

  /** Default occupancy radius of the pillar lookup, and the wider one the legality check uses. */
  const OccupancyThreshold: real := 0.7
  const LegalityThreshold: real := 0.9

  /** Absolute tolerance of the win check's radius comparison. */
  const WinTolerance: real := 0.01
  /** The relative tolerance every closeness test carries implicitly (NumPy's default). */
  const RelativeTolerance: real := 0.00001
  /** A pointer ray whose vertical component is at most this is treated as parallel to a horizontal plane. */
  const ParallelTolerance: real := 0.000001
}

=== FILE: drag.dfy ===
/**
  The drag controller. A drag has two phases. In the lift phase the held ring
  moves only vertically, following the pointer's vertical travel, and never
  drops below the height it was picked up at. Once it reaches the float height
  the drag turns horizontal: the ring stays at the float height and follows
  the point where the pointer ray meets that plane, and it is highlighted
  whenever dropping it there would be legal. Releasing at the float height
  places the ring: a legal move flips it and lets it descend onto the target
  pillar, an illegal one sends it back to where it was picked up.
 */
module Drag {
  import opened Config
  import opened Wrappers
  import opened Geometry
  import opened Objects
  import opened Utils
  import opened Scene
  import opened Rules

  /** Replaces ring `i` and leaves every other part of the state alone. */
  function WithRing(g: GameState, i: int, t: Torus): (r: GameState)
    requires 0 <= i < |g.rings|
    ensures r.rings == g.rings[i := t]
    ensures r == g.(rings := r.rings)
  {
    g.(rings := g.rings[i := t])
  }

  /**
    Starts holding ring `index`: remembers its position and the pillar it
    stands on, restarts the vertical-travel reference at the press position,
    returns to the lift phase, and records the horizontal offset between the
    ring's centre and the point where the pointer ray meets the ring's level.
    When the ray is parallel to that level the previous offset is kept.
   */
  function StartDragging(g: GameState, index: int, ray: Ray): (r: GameState)
    requires 0 <= index < |g.rings|
    ensures r.dragged == index && r.rings == g.rings && r.pillars == g.pillars
    ensures r.originalPos == g.rings[index].pos
    ensures r.originalPillar == RingPillar(g.rings[index], g.pillars, OccupancyThreshold)
    ensures r.lastMouse == g.mouseDown && !r.horizontal
    ensures r.dragging == g.dragging && r.mouseDown == g.mouseDown && r.moveCount == g.moveCount
    ensures r.won == g.won && r.showError == g.showError && r.errorStart == g.errorStart
    ensures r.dragOffset.y == 0.0 || r.dragOffset == g.dragOffset
    ensures PlaneHit(ray, g.rings[index].pos.y).None? ==> r.dragOffset == g.dragOffset
    ensures PlaneHit(ray, g.rings[index].pos.y).Some? ==>
              var hit := PlaneHit(ray, g.rings[index].pos.y).value;
              && r.dragOffset.y == 0.0
              && hit.x + r.dragOffset.x == g.rings[index].pos.x
              && hit.z + r.dragOffset.z == g.rings[index].pos.z
  {
    var t := g.rings[index];
    var g1 := g.(dragged := index, originalPos := t.pos,
                 originalPillar := RingPillar(t, g.pillars, OccupancyThreshold),
                 lastMouse := g.mouseDown, horizontal := false);
    match PlaneHit(ray, t.pos.y)
    case Some(hit) => g1.(dragOffset := Sub(t.pos, hit).(y := 0.0))
    case None => g1
  }

  /**
    Ends the drag. A ring that was dragged but never reached the horizontal
    phase goes back to where it was picked up; the held ring loses its
    highlight. The horizontal flag itself is left as it is.
   */
  function StopDragging(g: GameState): (r: GameState)
    requires DragIndexOk(g)
    ensures r.dragged == -1 && !r.dragging && r.horizontal == g.horizontal
    ensures |r.rings| == |g.rings|
    ensures forall i :: 0 <= i < |g.rings| && i != g.dragged ==> r.rings[i] == g.rings[i]
    ensures g.dragged != -1 ==>
              var before, after := g.rings[g.dragged], r.rings[g.dragged];
              && !after.highlighted
              && after.pos == (if g.dragging && !g.horizontal then g.originalPos else before.pos)
              && after == before.(pos := after.pos, highlighted := false)
    ensures r == g.(rings := r.rings, dragged := -1, dragging := false)
  {
    var g1 :=
      if g.dragged == -1 then g
      else
        var t := g.rings[g.dragged];
        var moved := if !g.horizontal && g.dragging then t.(pos := g.originalPos) else t;
        WithRing(g, g.dragged, moved.(highlighted := false));
    g1.(dragging := false, dragged := -1)
  }

  /** Squared pixel distance between two pointer positions. */
  function PixelDistSq(a: Pixel, b: Pixel): int {
    (a.x - b.x) * (a.x - b.x) + (a.y - b.y) * (a.y - b.y)
  }

  /**
    The pointer has travelled strictly farther than the drag threshold from
    where the button went down (Euclidean distance, compared squared).
   */
  function IsDragActive(g: GameState, mouse: Pixel): (active: bool)
    ensures active <==> PixelDistSq(mouse, g.mouseDown) > DragThreshold * DragThreshold
    ensures mouse.x - g.mouseDown.x > DragThreshold || g.mouseDown.x - mouse.x > DragThreshold ==> active
    ensures mouse.y - g.mouseDown.y > DragThreshold || g.mouseDown.y - mouse.y > DragThreshold ==> active
    ensures -3 <= mouse.x - g.mouseDown.x <= 3 && -3 <= mouse.y - g.mouseDown.y <= 3 ==> !active
    ensures mouse == g.mouseDown ==> !active
  {
    var dx, dy := mouse.x - g.mouseDown.x, mouse.y - g.mouseDown.y;
    assert dx * dx >= 0 && dy * dy >= 0;
    assert -3 <= dx <= 3 ==> dx * dx <= 9;
    assert -3 <= dy <= 3 ==> dy * dy <= 9;
    PixelDistSq(mouse, g.mouseDown) > DragThreshold * DragThreshold
  }

  /**
    Against the Euclidean distance itself: for `d` the non-negative square root
    of the squared pixel distance, the drag is active exactly when `d` exceeds
    the threshold.
   */
  lemma DragActiveIffFarther(g: GameState, mouse: Pixel, d: real)
    requires d >= 0.0 && d * d == PixelDistSq(mouse, g.mouseDown) as real
    ensures IsDragActive(g, mouse) <==> d > DragThreshold as real
  {
    var t := DragThreshold as real;
    if d > t {
      assert d * d > t * t by {
        assert d * d - t * t == (d - t) * (d + t);
        assert (d - t) * (d + t) > 0.0;
      }
    } else {
      assert d * d <= t * t by {
        assert t * t - d * d == (t - d) * (t + d);
        MulNonNegative(t - d, t + d);
      }
    }
  }

  /** Concrete offsets: 4 and (4, 3) pixels are within the threshold, (4, 4) pixels beyond it. */
  lemma DragThresholdExamples(g: GameState)
    ensures !IsDragActive(g, Pixel(g.mouseDown.x + 4, g.mouseDown.y))
    ensures !IsDragActive(g, Pixel(g.mouseDown.x + 4, g.mouseDown.y + 3))
    ensures IsDragActive(g, Pixel(g.mouseDown.x + 4, g.mouseDown.y + 4))
  {
  }

  /** The pillar the held ring is over, in the default occupancy view. */
  function DropTarget(g: GameState): int
    requires 0 <= g.dragged < |g.rings|
  {
    RingPillar(g.rings[g.dragged], g.pillars, OccupancyThreshold)
  }

  /** Dropping the held ring where it is now would be accepted. */
  predicate DropIsLegal(g: GameState)
    requires 0 <= g.dragged < |g.rings|
  {
    var target := DropTarget(g);
    target != -1 && Judge(g.rings, g.pillars, g.dragged, g.originalPillar, target) == Legal
  }

  /**
    Recomputes the held ring's highlight: afterwards it is lit exactly when
    dropping it where it is would be accepted. Nothing else changes.
   */
  function CheckHighlight(g: GameState): (r: GameState)
    requires 0 <= g.dragged < |g.rings|
    ensures |r.rings| == |g.rings|
    ensures r == WithRing(g, g.dragged, g.rings[g.dragged].(highlighted := r.rings[g.dragged].highlighted))
    ensures r.rings[g.dragged].highlighted <==> DropIsLegal(r)
  {
    var t := g.rings[g.dragged];
    var target := RingPillar(t, g.pillars, OccupancyThreshold);
    var valid := target != -1 && IsMoveValid(g, g.dragged, target, true).ok;
    HighlightKeepsDropLegality(g, valid);
    WithRing(g, g.dragged, t.(highlighted := valid))
  }

  /** Lighting or unlighting the held ring does not change whether its drop is legal. */
  lemma HighlightKeepsDropLegality(g: GameState, lit: bool)
    requires 0 <= g.dragged < |g.rings|
    ensures DropIsLegal(WithRing(g, g.dragged, g.rings[g.dragged].(highlighted := lit))) <==> DropIsLegal(g)
  {
    var t := g.rings[g.dragged];
    var r := WithRing(g, g.dragged, t.(highlighted := lit));
    var target := DropTarget(g);
    assert DropTarget(r) == target by {
      assert r.rings[g.dragged].pos == t.pos;
    }
    if target != -1 {
      JudgeIgnoresHighlight(g.rings, g.pillars, g.dragged, g.originalPillar, target, lit);
    }
  }

  /**
    Follows a pointer move to `mouse`, whose ray is `ray`. Upward pointer travel
    raises the held ring in the lift phase; reaching the float height only
    switches to the horizontal phase, without moving the ring in that call.
    In the horizontal phase the ring is pinned to the float height, follows the
    ray's hit on that plane (kept where it was when the ray is parallel), and
    its highlight is recomputed.
   */
  function UpdateDragged(g: GameState, ray: Ray, mouse: Pixel): (r: GameState)
    requires 0 <= g.dragged < |g.rings|
    ensures r.lastMouse == mouse && r.dragged == g.dragged && |r.rings| == |g.rings|
    ensures r == g.(rings := r.rings, lastMouse := mouse, horizontal := r.horizontal)
    ensures forall i :: 0 <= i < |g.rings| && i != g.dragged ==> r.rings[i] == g.rings[i]
    ensures g.horizontal ==> r.horizontal
    ensures
      var before, after := g.rings[g.dragged], r.rings[g.dragged];
      && after.inner == before.inner && after.outer == before.outer && after.state == before.state
      && after.flipAngle == before.flipAngle
    // lift phase
    ensures !g.horizontal && r.horizontal ==> r.rings == g.rings
    ensures !g.horizontal && !r.horizontal ==>
              var after := r.rings[g.dragged];
              && g.originalPos.y <= after.pos.y < FloatHeight
              && after.pos.x == g.originalPos.x && after.pos.z == g.originalPos.z
              && !after.highlighted
    ensures !g.horizontal && g.lastMouse.y >= mouse.y && !r.horizontal ==>
              r.rings[g.dragged].pos.y >= g.rings[g.dragged].pos.y
    // horizontal phase
    ensures g.horizontal ==>
              var after := r.rings[g.dragged];
              && after.pos.y == FloatHeight
              && (PlaneHit(ray, FloatHeight).None? ==>
                    after.pos.x == g.rings[g.dragged].pos.x && after.pos.z == g.rings[g.dragged].pos.z)
              && (PlaneHit(ray, FloatHeight).Some? ==>
                    && after.pos.x == PlaneHit(ray, FloatHeight).value.x + g.dragOffset.x
                    && after.pos.z == PlaneHit(ray, FloatHeight).value.z + g.dragOffset.z)
              && (after.highlighted <==> DropIsLegal(r))
  {
    if !g.horizontal then LiftStep(g, mouse) else SlideStep(g, ray, mouse)
  }

  /** The lift phase: upward pointer travel raises the ring over its original spot. */
  function LiftStep(g: GameState, mouse: Pixel): GameState
    requires 0 <= g.dragged < |g.rings| && !g.horizontal
  {
    var t := g.rings[g.dragged];
    var dy := g.lastMouse.y - mouse.y;
    var g1 := g.(lastMouse := mouse);
    var newY := Max(g.originalPos.y, t.pos.y + (dy as real) * LiftSensitivity);
    if newY >= FloatHeight then g1.(horizontal := true)
    else WithRing(g1, g.dragged, t.(pos := Vec3(g.originalPos.x, newY, g.originalPos.z), highlighted := false))
  }

  /** The horizontal phase: the ring is pinned to the float height and follows the ray's hit. */
  function SlideStep(g: GameState, ray: Ray, mouse: Pixel): (r: GameState)
    requires 0 <= g.dragged < |g.rings| && g.horizontal
    ensures |r.rings| == |g.rings|
    ensures r == g.(rings := r.rings, lastMouse := mouse)
    ensures
      var before, after := g.rings[g.dragged], r.rings[g.dragged];
      && r.rings == g.rings[g.dragged := after]
      && after == before.(pos := after.pos, highlighted := after.highlighted)
      && after.pos.y == FloatHeight
      && (PlaneHit(ray, FloatHeight).None? ==> after.pos.x == before.pos.x && after.pos.z == before.pos.z)
      && (PlaneHit(ray, FloatHeight).Some? ==>
            && after.pos.x == PlaneHit(ray, FloatHeight).value.x + g.dragOffset.x
            && after.pos.z == PlaneHit(ray, FloatHeight).value.z + g.dragOffset.z)
      && (after.highlighted <==> DropIsLegal(r))
  {
    var moved := SlideRing(g.rings[g.dragged], ray, g.dragOffset);
    CheckHighlight(WithRing(g.(lastMouse := mouse), g.dragged, moved))
  }

  /** The held ring moved to the float height, over the ray's hit plus the grab offset. */
  function SlideRing(t: Torus, ray: Ray, offset: Vec3): (r: Torus)
    ensures r == t.(pos := r.pos)
    ensures r.pos.y == FloatHeight
    ensures PlaneHit(ray, FloatHeight).None? ==> r.pos.x == t.pos.x && r.pos.z == t.pos.z
    ensures PlaneHit(ray, FloatHeight).Some? ==>
              && r.pos.x == PlaneHit(ray, FloatHeight).value.x + offset.x
              && r.pos.z == PlaneHit(ray, FloatHeight).value.z + offset.z
  {
    var level := t.(pos := t.pos.(y := FloatHeight));
    match PlaneHit(ray, FloatHeight)
    case Some(hit) => level.(pos := Vec3(hit.x + offset.x, FloatHeight, hit.z + offset.z))
    case None => level
  }

  /**
    Arms a landing on pillar `p`: the ring is moved over the pillar at its
    current height, and the half-turn flip and the descent to `landingY` are
    both started at `now`.
   */
  function ArmLanding(t: Torus, p: Pillar, now: real, landingY: real): (r: Torus)
    ensures r.pos == Vec3(p.x, t.pos.y, p.z)
    ensures r.state == Flipping && r.flipStart == now && r.descentStart == now
    ensures r.flipAngle == t.flipAngle && r.flipInitial == t.flipAngle
    ensures r.flipTarget == Mod360(t.flipAngle + 180.0)
    ensures r.descentInitialY == t.pos.y && r.descentTargetY == landingY
    ensures r.inner == t.inner && r.outer == t.outer && r.highlighted == t.highlighted
  {
    var snapped := t.(pos := Vec3(p.x, t.pos.y, p.z));
    StartDescent(StartFlip(snapped, now, Mod360(t.flipAngle + 180.0)), now, landingY)
  }

  /** The legal branch of a drop: the landing is armed and the move is counted. */
  function LandHeld(g: GameState, now: real, target: int): (r: GameState)
    requires 0 <= g.dragged < |g.rings| && 0 <= target < |g.pillars|
    ensures |r.rings| == |g.rings|
    ensures r == WithRing(g, g.dragged, r.rings[g.dragged]).(moveCount := g.moveCount + 1)
    ensures r.rings[g.dragged] == ArmLanding(g.rings[g.dragged], g.pillars[target], now,
                                             LandingY(g.rings, g.pillars, g.dragged, target))
  {
    var d := g.dragged;
    var landed := ArmLanding(g.rings[d], g.pillars[target], now, LandingY(g.rings, g.pillars, d, target));
    WithRing(g, d, landed).(moveCount := g.moveCount + 1)
  }

  /** The illegal branch of a drop: the error sequence is armed and the message raised. */
  function RejectHeld(g: GameState, now: real): (r: GameState)
    requires 0 <= g.dragged < |g.rings|
    ensures |r.rings| == |g.rings|
    ensures r == WithRing(g, g.dragged, r.rings[g.dragged]).(showError := true, errorStart := now)
    ensures
      var before, after := g.rings[g.dragged], r.rings[g.dragged];
      && after.state == ErrorPause && after.errorPauseStart == now && after.revertTarget == g.originalPos
      && after.pos == before.pos && after.flipAngle == before.flipAngle
  {
    WithRing(g, g.dragged, StartErrorRevert(g.rings[g.dragged], now, g.originalPos)).(showError := true, errorStart := now)
  }

  /**
    Drops the held ring at time `now`. A legal drop snaps the ring over the
    target pillar, arms the half-turn flip and the descent to the landing
    height (computed before the snap), and counts the move. An illegal drop
    arms the error sequence back to where the ring was picked up and shows the
    error message from `now`.
   */
  function PlaceTorus(g: GameState, now: real): (r: GameState)
    requires 0 <= g.dragged < |g.rings|
    ensures |r.rings| == |g.rings|
    ensures forall i :: 0 <= i < |g.rings| && i != g.dragged ==> r.rings[i] == g.rings[i]
    ensures r == g.(rings := r.rings, moveCount := r.moveCount, showError := r.showError, errorStart := r.errorStart)
    ensures r.moveCount == (if DropIsLegal(g) then g.moveCount + 1 else g.moveCount)
    ensures DropIsLegal(g) ==>
              var target := DropTarget(g);
              && r.rings[g.dragged] == ArmLanding(g.rings[g.dragged], g.pillars[target], now,
                                                  LandingY(g.rings, g.pillars, g.dragged, target))
              && r.showError == g.showError && r.errorStart == g.errorStart
    ensures !DropIsLegal(g) ==>
              var before, after := g.rings[g.dragged], r.rings[g.dragged];
              && after.state == ErrorPause && after.errorPauseStart == now && after.revertTarget == g.originalPos
              && after.pos == before.pos && after.flipAngle == before.flipAngle
              && r.showError && r.errorStart == now
  {
    if DropIsLegal(g) then LandHeld(g, now, DropTarget(g)) else RejectHeld(g, now)
  }

  /** The diagnostic line a drop prints: none for a legal drop or a drop beside every pillar. */
  function PlaceDiagnostics(g: GameState): (msgs: seq<string>)
    requires 0 <= g.dragged < |g.rings|
    ensures |msgs| <= 1
    ensures msgs != [] ==> DropTarget(g) != -1 && !DropIsLegal(g)
    ensures DropTarget(g) != -1 && !DropIsLegal(g) ==>
              msgs == [Diagnostic(Judge(g.rings, g.pillars, g.dragged, g.originalPillar, DropTarget(g)))]
  {
    var target := DropTarget(g);
    if target == -1 then [] else IsMoveValid(g, g.dragged, target, false).messages
  }

  // ---------------------------------------------------------------- the lift-phase invariant

  /**
    While a ring is held in the lift phase it stands directly above (or at)
    the spot it was picked up from.
   */
  predicate LiftInv(g: GameState) {
    0 <= g.dragged < |g.rings| && !g.horizontal ==>
      var t := g.rings[g.dragged];
      t.pos.x == g.originalPos.x && t.pos.z == g.originalPos.z && t.pos.y >= g.originalPos.y
  }

  lemma StartDraggingEstablishesLiftInv(g: GameState, index: int, ray: Ray)
    requires 0 <= index < |g.rings|
    ensures LiftInv(StartDragging(g, index, ray))
  {
  }

  lemma UpdateDraggedKeepsLiftInv(g: GameState, ray: Ray, mouse: Pixel)
    requires 0 <= g.dragged < |g.rings|
    requires LiftInv(g)
    ensures LiftInv(UpdateDragged(g, ray, mouse))
  {
  }

  /** Upward travel of the pointer, in pixels, between the last drag update and `mouse`. */
  function Rise(g: GameState, mouse: Pixel): int {
    g.lastMouse.y - mouse.y
  }

  /**
    In the lift phase every twenty pixels of upward pointer travel raise the
    ring by one unit, as long as it stays below the float height.
   */
  lemma LiftRate(g: GameState, ray: Ray, mouse: Pixel)
    requires 0 <= g.dragged < |g.rings| && !g.horizontal && LiftInv(g)
    requires Rise(g, mouse) >= 0
    requires g.rings[g.dragged].pos.y + (Rise(g, mouse) as real) / 20.0 < FloatHeight
    ensures !UpdateDragged(g, ray, mouse).horizontal
    ensures UpdateDragged(g, ray, mouse).rings[g.dragged].pos.y ==
            g.rings[g.dragged].pos.y + (Rise(g, mouse) as real) / 20.0
  {
  }

  /**
    Lifting is additive: two upward pointer moves in the lift phase leave the
    game exactly as one move over the same total travel would.
   */
  lemma LiftIsAdditive(g: GameState, ray: Ray, m1: Pixel, m2: Pixel)
    requires 0 <= g.dragged < |g.rings| && !g.horizontal && LiftInv(g)
    requires m2.y <= m1.y <= g.lastMouse.y
    requires g.rings[g.dragged].pos.y + (Rise(g, m2) as real) / 20.0 < FloatHeight
    ensures UpdateDragged(UpdateDragged(g, ray, m1), ray, m2) == UpdateDragged(g, ray, m2)
  {
  }

  /**
    A pointer move that would carry the ring to or past the float height only
    switches the drag to its horizontal phase and leaves every ring where it is.
   */
  lemma LiftReachesFloat(g: GameState, ray: Ray, mouse: Pixel)
    requires 0 <= g.dragged < |g.rings| && !g.horizontal
    requires g.rings[g.dragged].pos.y + (Rise(g, mouse) as real) / 20.0 >= FloatHeight
    ensures UpdateDragged(g, ray, mouse).horizontal
    ensures UpdateDragged(g, ray, mouse).rings == g.rings
  {
  }

  /**
    A drag released in the lift phase puts the ring back exactly where it was
    picked up, so an aborted lift leaves no trace on the ring's position.
   */
  lemma AbortedLiftRestores(g: GameState)
    requires 0 <= g.dragged < |g.rings| && g.dragging && !g.horizontal
    ensures StopDragging(g).rings[g.dragged].pos == g.originalPos
    ensures !StopDragging(g).rings[g.dragged].highlighted
  {
  }

  /**
    An armed landing plays the flip, then the descent, under any frame
    schedule: it comes to rest exactly when a frame falls a full descent
    duration after the frame that ended the flip, over the pillar at the
    landing height and turned by half a turn.
   */
  lemma {:induction false} ArmedLandingCompletes(t: Torus, p: Pillar, now0: real, landingY: real, armed: Torus,
                              flipping: seq<real>, finish: real, descending: seq<real>, ease: real -> real)
    requires armed == ArmLanding(t, p, now0, landingY)
    requires forall i :: 0 <= i < |flipping| ==> flipping[i] - now0 < FlipDuration
    requires finish - now0 >= FlipDuration
    ensures
      var landed := Frames(armed, flipping + [finish] + descending, ease);
      && (landed.state == Idle <==> exists i :: 0 <= i < |descending| && descending[i] - finish >= DescentDuration)
      && (landed.state == Idle ==>
            && landed.pos == Vec3(p.x, landingY, p.z)
            && landed.flipAngle == HalfTurned(t.flipAngle))
  {
    var snapped := t.(pos := Vec3(p.x, t.pos.y, p.z));
    assert ArmLanding(t, p, now0, landingY) ==
           StartDescent(StartFlip(snapped, now0, Mod360(t.flipAngle + 180.0)), now0, landingY);
    PlacementSequence(snapped, now0, Mod360(t.flipAngle + 180.0), landingY, flipping, finish, descending, ease);
  }

  /**
    A legal drop plays the flip, then the descent, under any frame schedule:
    the ring comes to rest exactly when a frame falls a full descent duration
    after the frame that ended the flip, over the target pillar at the landing
    height and turned by half a turn.
   */
  lemma {:induction false} LegalDropAnimates(g: GameState, now0: real, flipping: seq<real>, finish: real, descending: seq<real>,
                          ease: real -> real)
    requires 0 <= g.dragged < |g.rings| && DropIsLegal(g)
    requires forall i :: 0 <= i < |flipping| ==> flipping[i] - now0 < FlipDuration
    requires finish - now0 >= FlipDuration
    ensures
      var d, target := g.dragged, DropTarget(g);
      var placed := PlaceTorus(g, now0).rings[d];
      var landed := Frames(placed, flipping + [finish] + descending, ease);
      && (landed.state == Idle <==> exists i :: 0 <= i < |descending| && descending[i] - finish >= DescentDuration)
      && (landed.state == Idle ==>
            && landed.pos == Vec3(g.pillars[target].x, LandingY(g.rings, g.pillars, d, target), g.pillars[target].z)
            && landed.flipAngle == HalfTurned(g.rings[d].flipAngle))
  {
    var d, target := g.dragged, DropTarget(g);
    var targetY := LandingY(g.rings, g.pillars, d, target);
    var placed := PlaceTorus(g, now0).rings[d];
    ArmedLandingCompletes(g.rings[d], g.pillars[target], now0, targetY, placed, flipping, finish, descending, ease);
  }

  /**
    A legal drop, once its ring has come to rest under any frame schedule,
    leaves it over the target pillar, flipped by half a turn, at the landing
    height, and so strictly above every other ring on that pillar; when the
    pillars' occupancy discs do not overlap it is then counted as standing on
    the target pillar.
   */
  lemma {:induction false} LegalDropLands(g: GameState, now0: real, flipping: seq<real>, finish: real, descending: seq<real>,
                       ease: real -> real)
    requires 0 <= g.dragged < |g.rings| && DropIsLegal(g)
    requires forall i :: 0 <= i < |g.rings| ==> g.rings[i].inner >= 0.0
    requires Separated(g.pillars, OccupancyThreshold)
    requires forall i :: 0 <= i < |flipping| ==> flipping[i] - now0 < FlipDuration
    requires finish - now0 >= FlipDuration
    requires exists i :: 0 <= i < |descending| && descending[i] - finish >= DescentDuration
    ensures
      var d, target := g.dragged, DropTarget(g);
      var placed := PlaceTorus(g, now0).rings[d];
      var landed := Frames(placed, flipping + [finish] + descending, ease);
      && landed.state == Idle
      && landed.pos == Vec3(g.pillars[target].x, LandingY(g.rings, g.pillars, d, target), g.pillars[target].z)
      && landed.flipAngle == HalfTurned(g.rings[d].flipAngle)
      && RingPillar(landed, g.pillars, OccupancyThreshold) == target
      && forall j :: OtherOn(g.rings, g.pillars, d, target, OccupancyThreshold, j) ==>
           landed.pos.y >= g.rings[j].pos.y + Epsilon
  {
    var d, target := g.dragged, DropTarget(g);
    LegalDropAnimates(g, now0, flipping, finish, descending, ease);
    var targetY := LandingY(g.rings, g.pillars, d, target);
    var p := g.pillars[target];
    assert DistSqXZ(p.x, p.z, p.x, p.z) == 0.0;
    SeparatedLookupIsOrderFree(g.pillars, OccupancyThreshold, p.x, p.z, target);
    forall j | OtherOn(g.rings, g.pillars, d, target, OccupancyThreshold, j)
      ensures targetY >= g.rings[j].pos.y + Epsilon
    {
      LandsAboveOthers(g.rings, g.pillars, d, target, j);
    }
  }

  /**
    An illegal drop is not counted and raises the error message at the drop;
    under any frame schedule the ring then pauses, moves back, and comes to
    rest exactly when a frame falls a full revert duration after the frame
    that ended the horizontal revert, exactly where it was picked up, with
    its angle unchanged throughout.
   */
  lemma {:induction false} IllegalDropReturns(g: GameState, now0: real, paused: seq<real>, resume: real, moving: seq<real>,
                           over: real, lowering: seq<real>, ease: real -> real)
    requires 0 <= g.dragged < |g.rings| && !DropIsLegal(g)
    requires EaseOk(ease)
    requires forall i :: 0 <= i < |paused| ==> paused[i] - now0 < ErrorPauseDuration
    requires resume - now0 >= ErrorPauseDuration
    requires forall i :: 0 <= i < |moving| ==> moving[i] - resume < RevertAnimationDuration
    requires over - resume >= RevertAnimationDuration
    ensures
      var placed := PlaceTorus(g, now0);
      var back := Frames(placed.rings[g.dragged], paused + [resume] + moving + [over] + lowering, ease);
      && placed.moveCount == g.moveCount && placed.showError && placed.errorStart == now0
      && (back.state == Idle <==> exists i :: 0 <= i < |lowering| && lowering[i] - over >= RevertAnimationDuration)
      && (back.state == Idle ==> back.pos == g.originalPos)
      && back.flipAngle == g.rings[g.dragged].flipAngle
  {
    var t := g.rings[g.dragged];
    assert PlaceTorus(g, now0).rings[g.dragged] == StartErrorRevert(t, now0, g.originalPos);
    ErrorRevertSequence(t, now0, g.originalPos, paused, resume, moving, over, lowering, ease);
  }
}

=== FILE: geometry.dfy ===
/**
  Real-number geometry the game relies on: 3-vectors, pointer rays, the
  floating-point modulus on angles, the closeness test, and the intersection
  of a ray with a horizontal plane. Euclidean norms never appear: every
  comparison "norm < bound" is stated on squared lengths, which is exact.
 */
module Geometry {
  import opened Config
  import opened Wrappers

  datatype Vec3 = Vec3(x: real, y: real, z: real)

  /** A pointer ray in world space, produced by unprojecting a screen point. */
  datatype Ray = Ray(origin: Vec3, dir: Vec3)

  function Add(a: Vec3, b: Vec3): Vec3 { Vec3(a.x + b.x, a.y + b.y, a.z + b.z) }

  function Sub(a: Vec3, b: Vec3): Vec3 { Vec3(a.x - b.x, a.y - b.y, a.z - b.z) }

  function Scale(k: real, a: Vec3): Vec3 { Vec3(k * a.x, k * a.y, k * a.z) }

  function Dot(a: Vec3, b: Vec3): real { a.x * b.x + a.y * b.y + a.z * b.z }

  function NormSq(a: Vec3): real { Dot(a, a) }

  function Abs(r: real): real { if r < 0.0 then -r else r }

  function Min(a: real, b: real): real { if a <= b then a else b }

  function Max(a: real, b: real): real { if a >= b then a else b }

  /** Squared distance between two points of the ground plane. */
  function DistSqXZ(x1: real, z1: real, x2: real, z2: real): real {
    (x1 - x2) * (x1 - x2) + (z1 - z2) * (z1 - z2)
  }

  /**
    "A length whose square is `sq` is strictly below `bound`": a length is never
    negative, so a non-positive bound admits nothing, and otherwise the
    comparison can be squared.
   */
  predicate NormBelow(sq: real, bound: real) {
    bound > 0.0 && sq < bound * bound
  }

  /**
    NumPy's closeness test with the default relative tolerance: `a` is close to
    the reference value `b` when they differ by at most `atol` plus a
    hundred-thousandth of `|b|`.
   */
  predicate IsClose(a: real, b: real, atol: real) {
    Abs(a - b) <= atol + RelativeTolerance * Abs(b)
  }

  /**
    Python's float `a % 360`: the result has the sign of the modulus, so it lies
    in [0, 360), and it differs from `a` by a whole number of turns.
   */
  function Mod360(a: real): (m: real)
    ensures 0.0 <= m < 360.0
    ensures ((a - m) / 360.0).Floor as real == (a - m) / 360.0
  {
    a - 360.0 * ((a / 360.0).Floor as real)
  }

  /** The floor of a real is the integer just below it. */
  lemma FloorIs(x: real, k: int)
    requires k as real <= x < k as real + 1.0
    ensures x.Floor == k
  {
  }

  /** An angle already in [0, 360) is its own residue. */
  lemma Mod360OfResidue(a: real)
    requires 0.0 <= a < 360.0
    ensures Mod360(a) == a
  {
    FloorIs(a / 360.0, 0);
  }

  /** Adding a half turn moves the residue by half a turn, wrapping once. */
  lemma {:induction false} Mod360HalfTurn(a: real)
    ensures Mod360(a + 180.0) == if Mod360(a) < 180.0 then Mod360(a) + 180.0 else Mod360(a) - 180.0
  {
    var k := (a / 360.0).Floor;
    var m := Mod360(a);
    assert a == 360.0 * (k as real) + m;
    if m < 180.0 {
      FloorIs((a + 180.0) / 360.0, k);
    } else {
      FloorIs((a + 180.0) / 360.0, k + 1);
    }
  }

  /**
    Where the ray meets the horizontal plane at height `h`, or None when the ray
    is (nearly) parallel to that plane; the game then skips the update.
   */
  function PlaneHit(ray: Ray, h: real): (r: Option<Vec3>)
    ensures r.Some? <==> Abs(ray.dir.y) > ParallelTolerance
    ensures r.Some? ==> r.value.y == h
    ensures r.Some? ==> exists t: real :: r.value == Add(ray.origin, Scale(t, ray.dir))
  {
    if Abs(ray.dir.y) > ParallelTolerance then
      var t := (h - ray.origin.y) / ray.dir.y;
      Some(Add(ray.origin, Scale(t, ray.dir)))
    else
      None
  }
}

=== FILE: highest.dfy ===
/**
  First-maximum selection. The game picks "the highest ring" in two ways that
  agree: Python's `max(..., key=...)` and a scan keeping a candidate that is
  replaced only by a strictly higher one. Both return the EARLIEST of the
  highest selected entries, which matters when two rings share a height.
 */
module Highest {

  /** `k` is the earliest index of a maximal height among the selected entries. */
  ghost predicate IsFirstHighest(ys: seq<real>, mask: seq<bool>, k: int)
    requires |ys| == |mask|
  {
    && 0 <= k < |ys|
    && mask[k]
    && (forall i :: 0 <= i < |ys| && mask[i] ==> ys[i] <= ys[k])
    && (forall i :: 0 <= i < k && mask[i] ==> ys[i] < ys[k])
  }

  /** Index of the first highest selected entry, or -1 when nothing is selected. */
  function FirstHighest(ys: seq<real>, mask: seq<bool>): (k: int)
    requires |ys| == |mask|
    ensures -1 <= k < |ys|
    ensures k == -1 <==> forall i :: 0 <= i < |mask| ==> !mask[i]
    ensures k != -1 ==> IsFirstHighest(ys, mask, k)
    decreases |ys|
  {
    if |ys| == 0 then -1
    else
      var n := |ys| - 1;
      var k := FirstHighest(ys[..n], mask[..n]);
      if mask[n] && (k == -1 || ys[n] > ys[k]) then n else k
  }

  /** At most one index is the first highest: the selection is determined by heights and mask. */
  lemma FirstHighestUnique(ys: seq<real>, mask: seq<bool>, k1: int, k2: int)
    requires |ys| == |mask|
    requires IsFirstHighest(ys, mask, k1) && IsFirstHighest(ys, mask, k2)
    ensures k1 == k2
  {
  }
}

=== FILE: objects.dfy ===
/**
  The two kinds of scene objects: rings ("tori"), each with its own timed
  animation state machine and a two-coloured body whose visible faces depend
  on its flip angle, and pillars, which are fixed records.
 */
module Objects {
  import opened Config
  import opened Wrappers
  import opened Geometry

  /** Face colours; red is colour 0 and blue colour 1 in the game. */
  datatype Color = Red | Blue

  /** The closed set of animation states of a ring. */
  datatype AnimState = Idle | Flipping | Descending | ErrorPause | Reverting | RevertingY

  /** The only state changes one animation step may make. */
  predicate Transition(from: AnimState, to: AnimState) {
    || (from == Flipping && to == Descending)
    || (from == Descending && to == Idle)
    || (from == ErrorPause && to == Reverting)
    || (from == Reverting && to == RevertingY)
    || (from == RevertingY && to == Idle)
  }

  /**
    A ring. Besides its shape, pose and highlight flag it carries the scratch
    values of its animations: start times, initial and target angle, initial
    and target height, and the start and target of an error revert.
   */
  datatype Torus = Torus(
    inner: real,
    outer: real,
    pos: Vec3,
    flipAngle: real,
    state: AnimState,
    highlighted: bool,
    flipStart: real,
    flipTarget: real,
    flipInitial: real,
    descentStart: real,
    descentInitialY: real,
    descentTargetY: real,
    errorPauseStart: real,
    revertStart: real,
    revertInitial: Vec3,
    revertTarget: Vec3,
    yRevertStart: real,
    yRevertInitial: real,
    yRevertTarget: real)

  datatype Rgb = Rgb(r: real, g: real, b: real)

  /** A pillar: a fixed post at (x, z) of the ground plane. */
  datatype Pillar = Pillar(x: real, z: real, color: Rgb, letter: string, height: real)

  const Origin := Vec3(0.0, 0.0, 0.0)

  /** A freshly created ring: unflipped, idle, not highlighted, all animation values zero. */
  function NewTorus(inner: real, outer: real, pos: Vec3): (t: Torus)
    ensures t.inner == inner && t.outer == outer && t.pos == pos
    ensures t.flipAngle == 0.0 && t.state == Idle && !t.highlighted
  {
    Torus(inner, outer, pos, 0.0, Idle, false,
          0.0, 0.0, 0.0, 0.0, 0.0, 0.0, 0.0, 0.0, Origin, Origin, 0.0, 0.0, 0.0)
  }

  function NewPillar(x: real, z: real, color: Rgb, letter: string): (p: Pillar)
    ensures p.x == x && p.z == z && p.height == PillarHeight
  {
    Pillar(x, z, color, letter, PillarHeight)
  }

  /** A ring whose shape is that of a proper ring. */
  predicate WellFormed(t: Torus) {
    0.0 <= t.inner < t.outer
  }

  // ---------------------------------------------------------------- colours

  /** The angle the colour queries use: the override when one is given, else the ring's own. */
  function AngleOf(t: Torus, angleOverride: Option<real>): real {
    if angleOverride.Some? then angleOverride.value else t.flipAngle
  }

  /** The ring is upside down when its angle, taken modulo 360, is close to 180. */
  predicate UpsideDown(angle: real) {
    IsClose(Mod360(angle), 180.0, AngleTolerance)
  }

  /** The colour of the upward face: blue exactly when the ring is upside down. */
  function EffectiveTopColor(t: Torus, angleOverride: Option<real>): (c: Color)
    ensures c == Blue <==> 180.0 - 5.0018 <= Mod360(AngleOf(t, angleOverride)) <= 180.0 + 5.0018
  {
    if UpsideDown(AngleOf(t, angleOverride)) then Blue else Red
  }

  /** The colour of the downward face, always the other colour. */
  function EffectiveBottomColor(t: Torus, angleOverride: Option<real>): (c: Color)
    ensures c != EffectiveTopColor(t, angleOverride)
    ensures c == Red <==> 180.0 - 5.0018 <= Mod360(AngleOf(t, angleOverride)) <= 180.0 + 5.0018
  {
    if UpsideDown(AngleOf(t, angleOverride)) then Red else Blue
  }

  /**
    A half-turn flip brings the current top face to the bottom whenever the
    angle is within the tolerance of a face-up or face-down pose (0, 180 or 360
    modulo 360).
   */
  lemma FlipSwapsFaces(t: Torus)
    requires
      var m := Mod360(t.flipAngle);
      m <= AngleTolerance || Abs(m - 180.0) <= AngleTolerance || m >= 360.0 - AngleTolerance
    ensures EffectiveBottomColor(t, Some(Mod360(t.flipAngle + 180.0))) == EffectiveTopColor(t, None)
  {
    Mod360HalfTurn(t.flipAngle);
    Mod360OfResidue(Mod360(t.flipAngle + 180.0));
  }

  /** The settled angles a ring can rest at. */
  predicate Settled(angle: real) {
    angle == 0.0 || angle == 180.0
  }

  /** For a settled ring the flip always exchanges the faces. */
  lemma SettledFlipSwapsFaces(t: Torus)
    requires Settled(t.flipAngle)
    ensures EffectiveBottomColor(t, Some(Mod360(t.flipAngle + 180.0))) == EffectiveTopColor(t, None)
  {
    Mod360OfResidue(t.flipAngle);
    FlipSwapsFaces(t);
  }

  /** A half turn from a settled angle, reduced modulo 360, is the other settled angle. */
  lemma HalfTurnOfSettled(a: real)
    requires Settled(a)
    ensures Settled(Mod360(a + 180.0))
    ensures Mod360(a + 180.0) != a
  {
    if a == 0.0 {
      Mod360OfResidue(180.0);
    } else {
      FloorIs(360.0 / 360.0, 1);
    }
  }

  // ---------------------------------------------------------------- animation entry points

  /**
    The angle a ring rests at after a placement flip from angle `a`: the flip
    aims at a + 180 reduced modulo 360, and the completed flip reduces its
    target modulo 360 once more.
   */
  function HalfTurned(a: real): real {
    Mod360(Mod360(a + 180.0))
  }

  /** Arms a flip from the current angle to `target`. */
  function StartFlip(t: Torus, now: real, target: real): (r: Torus)
    ensures r.state == Flipping && r.flipTarget == target && r.flipStart == now
    ensures r.flipInitial == t.flipAngle && r.flipAngle == t.flipAngle
    ensures r.pos == t.pos && r.inner == t.inner && r.outer == t.outer
  {
    t.(state := Flipping, flipStart := now, flipInitial := t.flipAngle, flipTarget := target)
  }

  /** Records a descent from the current height to `targetY`; the state is left as it is. */
  function StartDescent(t: Torus, now: real, targetY: real): (r: Torus)
    ensures r.state == t.state && r.pos == t.pos && r.flipAngle == t.flipAngle
    ensures r.descentInitialY == t.pos.y && r.descentTargetY == targetY && r.descentStart == now
    ensures r.flipStart == t.flipStart && r.flipInitial == t.flipInitial && r.flipTarget == t.flipTarget
  {
    t.(descentStart := now, descentInitialY := t.pos.y, descentTargetY := targetY)
  }

  /** Arms the error sequence: a pause, then a revert towards `original`. */
  function StartErrorRevert(t: Torus, now: real, original: Vec3): (r: Torus)
    ensures r.state == ErrorPause && r.errorPauseStart == now && r.revertTarget == original
    ensures r.pos == t.pos && r.flipAngle == t.flipAngle
  {
    t.(state := ErrorPause, errorPauseStart := now, revertTarget := original)
  }

  // ---------------------------------------------------------------- the per-frame step

  /** Fraction of a phase elapsed, capped at 1; the phase is over exactly when it reaches 1. */
  function Progress(now: real, start: real, duration: real): (p: real)
    requires duration > 0.0
    ensures p <= 1.0
    ensures p >= 1.0 <==> now - start >= duration
    ensures now >= start ==> 0.0 <= p
  {
    Min(1.0, (now - start) / duration)
  }

  function Lerp(a: real, b: real, e: real): real {
    a + (b - a) * e
  }

  /**
    The easing curve is not modelled; every lemma that needs its shape assumes
    only that it maps 0 to 0, 1 to 1 and [0, 1] into [0, 1].
   */
  ghost predicate EaseOk(ease: real -> real) {
    && ease(0.0) == 0.0
    && ease(1.0) == 1.0
    && forall p :: 0.0 <= p <= 1.0 ==> 0.0 <= ease(p) <= 1.0
  }

  /**
    Advances one ring's animation to time `now`. Exactly one branch runs, so one
    call makes at most one state change; the current phase moves only its own
    quantity, and the recorded starts, initial values and targets are kept
    except where a transition arms the next phase.
   */
  function UpdateAnimation(t: Torus, now: real, ease: real -> real): (r: Torus)
    ensures r.inner == t.inner && r.outer == t.outer && r.highlighted == t.highlighted
    ensures t.state == Idle ==> r == t
    ensures r.state == t.state || Transition(t.state, r.state)
    ensures r.flipAngle != t.flipAngle ==> t.state == Flipping
    ensures r.pos.y != t.pos.y ==> t.state == Descending || t.state == RevertingY
    ensures r.pos.x != t.pos.x || r.pos.z != t.pos.z ==> t.state == Reverting
    ensures t.state == Flipping ==> (r.state == Descending <==> now - t.flipStart >= FlipDuration)
    ensures t.state == Flipping && r.state == Descending ==>
              r.flipAngle == Mod360(t.flipTarget) && r.descentStart == now
    ensures t.state == Descending ==> (r.state == Idle <==> now - t.descentStart >= DescentDuration)
    ensures t.state == Descending && r.state == Idle ==> r.pos.y == t.descentTargetY
    ensures t.state == ErrorPause ==> r.pos == t.pos
    ensures t.state == ErrorPause ==> (r.state == Reverting <==> now - t.errorPauseStart >= ErrorPauseDuration)
    ensures t.state == ErrorPause && r.state == Reverting ==> r.revertInitial == t.pos && r.revertStart == now
    ensures t.state == Reverting ==> (r.state == RevertingY <==> now - t.revertStart >= RevertAnimationDuration)
    ensures t.state == Reverting && r.state == RevertingY ==>
              r.yRevertStart == now && r.yRevertInitial == t.pos.y && r.yRevertTarget == t.revertTarget.y
    ensures t.state == RevertingY ==> (r.state == Idle <==> now - t.yRevertStart >= RevertAnimationDuration)
    ensures t.state == RevertingY && r.state == Idle ==> r.pos.y == t.yRevertTarget
    // what a frame keeps: the flip's and the descent's recorded ends, the error
    // pause's start and the revert target are never touched, and each remaining
    // start or initial value is written only by the transition into its phase
    ensures r == t.(pos := r.pos, flipAngle := r.flipAngle, state := r.state, descentStart := r.descentStart,
                    revertStart := r.revertStart, revertInitial := r.revertInitial,
                    yRevertStart := r.yRevertStart, yRevertInitial := r.yRevertInitial,
                    yRevertTarget := r.yRevertTarget)
    ensures r.descentStart != t.descentStart ==> t.state == Flipping && r.state == Descending
    ensures r.revertStart != t.revertStart || r.revertInitial != t.revertInitial ==>
              t.state == ErrorPause && r.state == Reverting
    ensures r.yRevertStart != t.yRevertStart || r.yRevertInitial != t.yRevertInitial ||
            r.yRevertTarget != t.yRevertTarget ==>
              t.state == Reverting && r.state == RevertingY
  {
    match t.state
    case Idle => t
    case Flipping =>
      var p := Progress(now, t.flipStart, FlipDuration);
      if p >= 1.0 then
        t.(flipAngle := Mod360(t.flipTarget), state := Descending, descentStart := now)
      else
        t.(flipAngle := Lerp(t.flipInitial, t.flipTarget, ease(p)))
    case Descending =>
      var p := Progress(now, t.descentStart, DescentDuration);
      if p >= 1.0 then
        t.(pos := t.pos.(y := t.descentTargetY), state := Idle)
      else
        t.(pos := t.pos.(y := Lerp(t.descentInitialY, t.descentTargetY, ease(p))))
    case ErrorPause =>
      if now - t.errorPauseStart >= ErrorPauseDuration then
        t.(state := Reverting, revertStart := now, revertInitial := t.pos)
      else
        t
    case Reverting =>
      var p := Progress(now, t.revertStart, RevertAnimationDuration);
      var e := ease(p);
      var moved := t.pos.(x := Lerp(t.revertInitial.x, t.revertTarget.x, e),
                          z := Lerp(t.revertInitial.z, t.revertTarget.z, e));
      if p >= 1.0 then
        t.(pos := moved, state := RevertingY,
           yRevertStart := now, yRevertInitial := moved.y, yRevertTarget := t.revertTarget.y)
      else
        t.(pos := moved)
    case RevertingY =>
      var p := Progress(now, t.yRevertStart, RevertAnimationDuration);
      if p >= 1.0 then
        t.(pos := t.pos.(y := t.yRevertTarget), state := Idle)
      else
        t.(pos := t.pos.(y := Lerp(t.yRevertInitial, t.yRevertTarget, ease(p))))
  }

  // ---------------------------------------------------------------- runs of frames

  /** The ring after one animation frame at each of `times`, in order. */
  function Frames(t: Torus, times: seq<real>, ease: real -> real): (r: Torus)
    ensures r.inner == t.inner && r.outer == t.outer && r.highlighted == t.highlighted
    decreases |times|
  {
    if |times| == 0 then t else Frames(UpdateAnimation(t, times[0], ease), times[1..], ease)
  }

  /** Running two schedules one after the other is running their concatenation. */
  lemma {:induction false} FramesAppend(t: Torus, a: seq<real>, b: seq<real>, ease: real -> real)
    ensures Frames(t, a + b, ease) == Frames(Frames(t, a, ease), b, ease)
    decreases |a|
  {
    if |a| == 0 {
      assert a + b == b;
    } else {
      assert (a + b)[1..] == a[1..] + b;
      FramesAppend(UpdateAnimation(t, a[0], ease), a[1..], b, ease);
    }
  }

  /** An idle ring is left exactly as it is by any number of frames. */
  lemma {:induction false} IdleFrames(t: Torus, times: seq<real>, ease: real -> real)
    requires t.state == Idle
    ensures Frames(t, times, ease) == t
    decreases |times|
  {
    if |times| > 0 {
      IdleFrames(t, times[1..], ease);
    }
  }

  /** Frames before the flip's duration has passed only turn the ring. */
  lemma {:induction false} FlipFrames(t: Torus, times: seq<real>, ease: real -> real)
    requires t.state == Flipping
    requires forall i :: 0 <= i < |times| ==> times[i] - t.flipStart < FlipDuration
    ensures Frames(t, times, ease) == t.(flipAngle := Frames(t, times, ease).flipAngle)
    decreases |times|
  {
    if |times| > 0 {
      FlipFrames(UpdateAnimation(t, times[0], ease), times[1..], ease);
    }
  }

  /**
    Any frames during a descent move only the height. The ring comes to rest
    exactly when one of the frames falls a full descent duration after the
    descent's start, and it then rests at the descent's target height.
   */
  lemma {:induction false} DescentFrames(t: Torus, times: seq<real>, ease: real -> real)
    requires t.state == Descending
    ensures
      var r := Frames(t, times, ease);
      && r == t.(pos := t.pos.(y := r.pos.y), state := r.state)
      && (r.state == Descending || r.state == Idle)
      && (r.state == Idle <==> exists i :: 0 <= i < |times| && times[i] - t.descentStart >= DescentDuration)
      && (r.state == Idle ==> r.pos.y == t.descentTargetY)
    decreases |times|
  {
    if |times| > 0 {
      var u := UpdateAnimation(t, times[0], ease);
      if u.state == Idle {
        IdleFrames(u, times[1..], ease);
      } else {
        DescentFrames(u, times[1..], ease);
        var r := Frames(t, times, ease);
        if r.state == Idle {
          var k :| 0 <= k < |times[1..]| && times[1..][k] - u.descentStart >= DescentDuration;
          assert times[k + 1] - t.descentStart >= DescentDuration;
        } else {
          assert forall i :: 1 <= i < |times| ==> times[1..][i - 1] == times[i];
        }
      }
    }
  }

  /** Frames before the error pause is over change nothing. */
  lemma {:induction false} PauseFrames(t: Torus, times: seq<real>, ease: real -> real)
    requires t.state == ErrorPause
    requires forall i :: 0 <= i < |times| ==> times[i] - t.errorPauseStart < ErrorPauseDuration
    ensures Frames(t, times, ease) == t
    decreases |times|
  {
    if |times| > 0 {
      PauseFrames(t, times[1..], ease);
    }
  }

  /** Frames before the horizontal revert's duration has passed move the ring only along x and z. */
  lemma {:induction false} RevertFrames(t: Torus, times: seq<real>, ease: real -> real)
    requires t.state == Reverting
    requires forall i :: 0 <= i < |times| ==> times[i] - t.revertStart < RevertAnimationDuration
    ensures
      var r := Frames(t, times, ease);
      r == t.(pos := t.pos.(x := r.pos.x, z := r.pos.z))
    decreases |times|
  {
    if |times| > 0 {
      RevertFrames(UpdateAnimation(t, times[0], ease), times[1..], ease);
    }
  }

  /**
    Any frames during the vertical revert move only the height. The ring comes
    to rest exactly when one of the frames falls a full revert duration after
    that phase's start, and it then rests at the revert's target height.
   */
  lemma {:induction false} RevertYFrames(t: Torus, times: seq<real>, ease: real -> real)
    requires t.state == RevertingY
    ensures
      var r := Frames(t, times, ease);
      && r == t.(pos := t.pos.(y := r.pos.y), state := r.state)
      && (r.state == RevertingY || r.state == Idle)
      && (r.state == Idle <==> exists i :: 0 <= i < |times| && times[i] - t.yRevertStart >= RevertAnimationDuration)
      && (r.state == Idle ==> r.pos.y == t.yRevertTarget)
    decreases |times|
  {
    if |times| > 0 {
      var u := UpdateAnimation(t, times[0], ease);
      if u.state == Idle {
        IdleFrames(u, times[1..], ease);
      } else {
        RevertYFrames(u, times[1..], ease);
        var r := Frames(t, times, ease);
        if r.state == Idle {
          var k :| 0 <= k < |times[1..]| && times[1..][k] - u.yRevertStart >= RevertAnimationDuration;
          assert times[k + 1] - t.yRevertStart >= RevertAnimationDuration;
        } else {
          assert forall i :: 1 <= i < |times| ==> times[1..][i - 1] == times[i];
        }
      }
    }
  }

  // ---------------------------------------------------------------- chained sequences

  /**
    After a successful placement (flip and descent armed at the same instant),
    whatever the frame schedule: the frames before the flip's duration has
    passed only turn the ring; the first frame after it completes the flip and
    starts the descent, timed from that frame and not from the placement; and
    the ring comes to rest exactly when a later frame falls a full descent
    duration after it, at the landing height with its flip completed.
   */
  lemma {:induction false} PlacementSequence(t: Torus, now0: real, target: real, landingY: real,
                          flipping: seq<real>, finish: real, descending: seq<real>, ease: real -> real)
    requires forall i :: 0 <= i < |flipping| ==> flipping[i] - now0 < FlipDuration
    requires finish - now0 >= FlipDuration
    ensures
      var armed := StartDescent(StartFlip(t, now0, target), now0, landingY);
      var u := Frames(armed, flipping + [finish] + descending, ease);
      && (u.state == Idle || u.state == Descending)
      && (u.state == Idle <==> exists i :: 0 <= i < |descending| && descending[i] - finish >= DescentDuration)
      && (u.state == Idle ==> u.pos == t.pos.(y := landingY) && u.flipAngle == Mod360(target))
  {
    var armed := StartDescent(StartFlip(t, now0, target), now0, landingY);
    FlipFrames(armed, flipping, ease);
    var turning := Frames(armed, flipping, ease);
    var landing := UpdateAnimation(turning, finish, ease);
    assert landing.state == Descending && landing.descentStart == finish;
    DescentFrames(landing, descending, ease);
    FramesAppend(armed, flipping, [finish], ease);
    FramesAppend(armed, flipping + [finish], descending, ease);
    assert Frames(turning, [finish], ease) == landing;
  }

  /**
    After an illegal placement, whatever the frame schedule: the ring stays
    put while the pause lasts; the first frame after it starts the horizontal
    revert from there; the first frame a full revert duration later finishes
    it exactly over the original spot and starts the vertical revert; and the
    ring comes to rest exactly when a later frame falls a further full revert
    duration after that, exactly at the original position, with its flip
    angle untouched throughout.
   */
  lemma {:induction false} ErrorRevertSequence(t: Torus, now0: real, original: Vec3,
                            paused: seq<real>, resume: real, moving: seq<real>, over: real,
                            lowering: seq<real>, ease: real -> real)
    requires EaseOk(ease)
    requires forall i :: 0 <= i < |paused| ==> paused[i] - now0 < ErrorPauseDuration
    requires resume - now0 >= ErrorPauseDuration
    requires forall i :: 0 <= i < |moving| ==> moving[i] - resume < RevertAnimationDuration
    requires over - resume >= RevertAnimationDuration
    ensures
      var armed := StartErrorRevert(t, now0, original);
      var u := Frames(armed, paused + [resume] + moving + [over] + lowering, ease);
      && (u.state == Idle || u.state == RevertingY)
      && (u.state == Idle <==> exists i :: 0 <= i < |lowering| && lowering[i] - over >= RevertAnimationDuration)
      && (u.state == Idle ==> u.pos == original)
      && u.flipAngle == t.flipAngle
  {
    var armed := StartErrorRevert(t, now0, original);
    PauseFrames(armed, paused, ease);
    var back := UpdateAnimation(armed, resume, ease);
    assert back.state == Reverting && back.revertStart == resume && back.pos == t.pos;
    RevertFrames(back, moving, ease);
    var moved := Frames(back, moving, ease);
    assert Progress(over, moved.revertStart, RevertAnimationDuration) == 1.0;
    var lower := UpdateAnimation(moved, over, ease);
    assert lower.state == RevertingY && lower.pos == Vec3(original.x, t.pos.y, original.z);
    RevertYFrames(lower, lowering, ease);
    ErrorRevertSchedule(armed, paused, resume, moving, over, lowering, ease);
  }

  /** The schedule of an error revert, split at its two phase-ending frames. */
  lemma {:induction false} ErrorRevertSchedule(armed: Torus, paused: seq<real>, resume: real, moving: seq<real>, over: real,
                            lowering: seq<real>, ease: real -> real)
    ensures
      var moved := Frames(UpdateAnimation(Frames(armed, paused, ease), resume, ease), moving, ease);
      Frames(armed, paused + [resume] + moving + [over] + lowering, ease) ==
      Frames(UpdateAnimation(moved, over, ease), lowering, ease)
  {
    var s1 := paused + [resume];
    var s2 := s1 + moving;
    var s3 := s2 + [over];
    FramesAppend(armed, paused, [resume], ease);
    FramesAppend(armed, s1, moving, ease);
    FramesAppend(armed, s2, [over], ease);
    FramesAppend(armed, s3, lowering, ease);
  }

  lemma MulNonNegative(x: real, y: real)
    requires x >= 0.0 && y >= 0.0
    ensures x * y >= 0.0
  {
  }

  /** Interpolating with a weight in [0, 1] stays between the two end points. */
  lemma LerpBetween(a: real, b: real, e: real)
    requires 0.0 <= e <= 1.0
    ensures Min(a, b) <= Lerp(a, b, e) <= Max(a, b)
  {
    var d := b - a;
    assert d * (1.0 - e) == d - d * e;
    if d >= 0.0 {
      MulNonNegative(d, e);
      MulNonNegative(d, 1.0 - e);
    } else {
      MulNonNegative(-d, e);
      MulNonNegative(-d, 1.0 - e);
    }
  }

  /** A descent never overshoots: while it runs the height stays between its start and its target. */
  lemma DescentStaysBetween(t: Torus, now: real, ease: real -> real)
    requires EaseOk(ease)
    requires t.state == Descending && now >= t.descentStart
    ensures
      var y := UpdateAnimation(t, now, ease).pos.y;
      Min(t.descentInitialY, t.descentTargetY) <= y <= Max(t.descentInitialY, t.descentTargetY)
  {
    var p := Progress(now, t.descentStart, DescentDuration);
    if p < 1.0 {
      LerpBetween(t.descentInitialY, t.descentTargetY, ease(p));
    }
  }
  /** A flip in progress never overshoots its initial or its target angle. */
  lemma FlipStaysBetween(t: Torus, now: real, ease: real -> real)
    requires EaseOk(ease)
    requires t.state == Flipping && now >= t.flipStart
    ensures
      var r := UpdateAnimation(t, now, ease);
      r.state == Flipping ==> Min(t.flipInitial, t.flipTarget) <= r.flipAngle <= Max(t.flipInitial, t.flipTarget)
  {
    var p := Progress(now, t.flipStart, FlipDuration);
    if p < 1.0 {
      LerpBetween(t.flipInitial, t.flipTarget, ease(p));
    }
  }

  /** The horizontal part of a revert never overshoots, along x or along z. */
  lemma RevertStaysBetween(t: Torus, now: real, ease: real -> real)
    requires EaseOk(ease)
    requires t.state == Reverting && now >= t.revertStart
    ensures
      var r := UpdateAnimation(t, now, ease);
      && Min(t.revertInitial.x, t.revertTarget.x) <= r.pos.x <= Max(t.revertInitial.x, t.revertTarget.x)
      && Min(t.revertInitial.z, t.revertTarget.z) <= r.pos.z <= Max(t.revertInitial.z, t.revertTarget.z)
  {
    var e := ease(Progress(now, t.revertStart, RevertAnimationDuration));
    LerpBetween(t.revertInitial.x, t.revertTarget.x, e);
    LerpBetween(t.revertInitial.z, t.revertTarget.z, e);
  }

  /** The vertical part of a revert never overshoots its start or its target height. */
  lemma RevertYStaysBetween(t: Torus, now: real, ease: real -> real)
    requires EaseOk(ease)
    requires t.state == RevertingY && now >= t.yRevertStart
    ensures
      var y := UpdateAnimation(t, now, ease).pos.y;
      Min(t.yRevertInitial, t.yRevertTarget) <= y <= Max(t.yRevertInitial, t.yRevertTarget)
  {
    var p := Progress(now, t.yRevertStart, RevertAnimationDuration);
    if p < 1.0 {
      LerpBetween(t.yRevertInitial, t.yRevertTarget, ease(p));
    }
  }


  /**
    The resting-angle invariant: a ring that is not flipping rests at 0 or 180
    degrees, and a flipping ring is heading for one of them.
   */
  predicate AngleInvariant(t: Torus) {
    && (t.state == Flipping ==> Settled(t.flipTarget))
    && (t.state != Flipping ==> Settled(t.flipAngle))
  }

  lemma UpdateKeepsAngleInvariant(t: Torus, now: real, ease: real -> real)
    requires AngleInvariant(t)
    ensures AngleInvariant(UpdateAnimation(t, now, ease))
  {
    if t.state == Flipping {
      Mod360OfResidue(t.flipTarget);
    }
  }

  /** Arming the placement flip (a half turn, reduced modulo 360) on a ring at rest keeps the invariant. */
  lemma PlacementFlipKeepsAngleInvariant(t: Torus, now: real, landingY: real)
    requires AngleInvariant(t) && t.state != Flipping
    ensures AngleInvariant(StartDescent(StartFlip(t, now, Mod360(t.flipAngle + 180.0)), now, landingY))
  {
    HalfTurnOfSettled(t.flipAngle);
  }
}

=== FILE: picking.dfy ===
/**
  Picking the ring under the pointer. A ring is hit when its centre lies ahead
  of the ray origin and the ray passes its centre closer than outer + inner
  radius (a bounding sphere, not the exact torus). Only idle rings that no
  other ring on the same pillar covers from above can be picked, and among
  those the highest wins.
 */
module Picking {
  import opened Config
  import opened Geometry
  import opened Objects
  import opened Sorting
  import opened Utils
  import opened Highest

  /** Projection of the ring's centre onto the ray direction. For a unit direction, which
      the program's picking ray always has (its direction is normalised), this is the
      distance along the ray to the point closest to the centre. */
  function RayParameter(t: Torus, ray: Ray): real {
    Dot(Sub(t.pos, ray.origin), ray.dir)
  }

  /** The point on the ray's line at that parameter: for a unit direction, the ray's
      point of closest approach to the ring's centre. */
  function ClosestPoint(t: Torus, ray: Ray): Vec3 {
    Add(ray.origin, Scale(RayParameter(t, ray), ray.dir))
  }

  /** The centre is not behind the origin and the ray passes within outer + inner of it. */
  predicate RayHits(t: Torus, ray: Ray) {
    && RayParameter(t, ray) >= 0.0
    && NormBelow(NormSq(Sub(t.pos, ClosestPoint(t, ray))), t.outer + t.inner)
  }

  /** No other ring on the same pillar is strictly higher; a ring on no pillar is never covered. */
  predicate Uncovered(rings: seq<Torus>, pillars: seq<Pillar>, i: int)
    requires 0 <= i < |rings|
  {
    var p := RingPillar(rings[i], pillars, OccupancyThreshold);
    p == -1 ||
    forall j :: 0 <= j < |rings| && j != i && RingPillar(rings[j], pillars, OccupancyThreshold) == p ==>
      rings[j].pos.y <= rings[i].pos.y
  }

  predicate Pickable(rings: seq<Torus>, pillars: seq<Pillar>, ray: Ray, i: int)
    requires 0 <= i < |rings|
  {
    rings[i].state == Idle && RayHits(rings[i], ray) && Uncovered(rings, pillars, i)
  }

  function PickMask(rings: seq<Torus>, pillars: seq<Pillar>, ray: Ray): (m: seq<bool>)
    ensures |m| == |rings|
    ensures forall i :: 0 <= i < |rings| ==> m[i] == Pickable(rings, pillars, ray, i)
  {
    seq(|rings|, i requires 0 <= i < |rings| => Pickable(rings, pillars, ray, i))
  }

  /**
    The ring to pick: -1 when no ring is pickable, otherwise a pickable ring
    no pickable ring is higher than, the earliest one in list order on a tie.
   */
  function FindTopmost(rings: seq<Torus>, pillars: seq<Pillar>, ray: Ray): (k: int)
    ensures -1 <= k < |rings|
    ensures k == -1 <==> forall i :: 0 <= i < |rings| ==> !Pickable(rings, pillars, ray, i)
    ensures k != -1 ==> Pickable(rings, pillars, ray, k)
    ensures k != -1 ==> forall i :: 0 <= i < |rings| && Pickable(rings, pillars, ray, i) ==>
                          rings[i].pos.y <= rings[k].pos.y
    ensures k != -1 ==> forall i :: 0 <= i < k && Pickable(rings, pillars, ray, i) ==>
                          rings[i].pos.y < rings[k].pos.y
  {
    FirstHighest(MapSeq(Height, rings), PickMask(rings, pillars, ray))
  }
}

=== FILE: rules.dfy ===
/**
  The rules of a move and where a placed ring lands. A move either puts the
  ring back on the pillar it came from (a flip in place) or carries it to the
  next pillar clockwise. The ring is always flipped on the way, so its current
  top face ends up underneath. The move is refused when the ring is larger than
  the top ring of the target (a flip in place is exempt from this), or when the
  face it will show underneath has the same colour as the top face of that ring.
 */
module Rules {
  import opened Config
  import opened Wrappers
  import opened Geometry
  import opened Objects
  import opened Sorting
  import opened Utils
  import opened Highest
  import opened Scene

  /** Why a move was refused, or that it is allowed; the checks run in this order. */
  datatype Verdict = Legal | NotClockwise | SizeViolation | ColorRepulsion

  /** Staying on the same pillar, or moving to the next one in list order (wrapping around). */
  predicate DirectionOk(orig: int, target: int, pillarCount: int) {
    orig == target || (pillarCount > 0 && target == (orig + 1) % pillarCount)
  }

  /** Ring `j` is a ring other than the moving one and stands on pillar `target`. */
  predicate OtherOn(rings: seq<Torus>, pillars: seq<Pillar>, moving: int, target: int, threshold: real, j: int) {
    0 <= j < |rings| && j != moving && RingPillar(rings[j], pillars, threshold) == target
  }

  /** Ring `k` is the top ring of the target pillar, ignoring the moving ring; the earliest one on a tie. */
  ghost predicate IsTopOn(rings: seq<Torus>, pillars: seq<Pillar>, moving: int, target: int, threshold: real, k: int) {
    && OtherOn(rings, pillars, moving, target, threshold, k)
    && (forall j :: OtherOn(rings, pillars, moving, target, threshold, j) ==> rings[j].pos.y <= rings[k].pos.y)
    && (forall j :: 0 <= j < k && OtherOn(rings, pillars, moving, target, threshold, j) ==> rings[j].pos.y < rings[k].pos.y)
  }

  function OthersOnMask(rings: seq<Torus>, pillars: seq<Pillar>, moving: int, target: int, threshold: real): (m: seq<bool>)
    ensures |m| == |rings|
    ensures forall j :: 0 <= j < |rings| ==> m[j] == OtherOn(rings, pillars, moving, target, threshold, j)
  {
    seq(|rings|, j requires 0 <= j < |rings| => OtherOn(rings, pillars, moving, target, threshold, j))
  }

  /** The top ring of the target pillar other than the moving ring, or -1 when there is none. */
  function TopOn(rings: seq<Torus>, pillars: seq<Pillar>, moving: int, target: int, threshold: real): (k: int)
    ensures -1 <= k < |rings|
    ensures k == -1 <==> forall j :: !OtherOn(rings, pillars, moving, target, threshold, j)
    ensures k != -1 ==> IsTopOn(rings, pillars, moving, target, threshold, k)
  {
    var ys := MapSeq(Height, rings);
    var mask := OthersOnMask(rings, pillars, moving, target, threshold);
    FirstHighest(ys, mask)
  }

  /** The top ring of a pillar is unique. */
  lemma TopOnUnique(rings: seq<Torus>, pillars: seq<Pillar>, moving: int, target: int, threshold: real, k1: int, k2: int)
    requires IsTopOn(rings, pillars, moving, target, threshold, k1)
    requires IsTopOn(rings, pillars, moving, target, threshold, k2)
    ensures k1 == k2
  {
  }

  /** The moving ring, once flipped, shows underneath the colour the top ring shows on top. */
  predicate Repels(mover: Torus, top: Torus) {
    EffectiveBottomColor(mover, Some(Mod360(mover.flipAngle + 180.0))) == EffectiveTopColor(top, None)
  }

  /** The size rule: a ring may not go onto a smaller one, except when flipped in place. */
  predicate SizeOk(mover: Torus, top: Torus, inPlace: bool) {
    inPlace || mover.outer <= top.outer
  }

  /**
    The verdict on moving ring `moving`, lifted from pillar `orig`, onto pillar
    `target`. The legality view of occupancy uses the wider threshold. The
    direction rule is checked first; `JudgeMeaning` states the other rules.
   */
  function Judge(rings: seq<Torus>, pillars: seq<Pillar>, moving: int, orig: int, target: int): (v: Verdict)
    requires 0 <= moving < |rings|
    requires orig != target ==> |pillars| > 0
    ensures v == NotClockwise <==> !DirectionOk(orig, target, |pillars|)
    ensures orig == target ==> v != SizeViolation
  {
    if orig != target && target != (orig + 1) % |pillars| then NotClockwise
    else
      var top := TopOn(rings, pillars, moving, target, LegalityThreshold);
      if top == -1 then Legal
      else if orig != target && rings[moving].outer > rings[top].outer then SizeViolation
      else if Repels(rings[moving], rings[top]) then ColorRepulsion
      else Legal
  }

  /**
    What each verdict means, in terms of the top ring of the target pillar
    (other than the moving ring): a move in an allowed direction is legal
    exactly when that ring, if there is one, is at least as large (unless the
    ring is flipped in place) and does not repel the flipped ring; an empty
    target pillar accepts every move in an allowed direction.
   */
  lemma JudgeMeaning(rings: seq<Torus>, pillars: seq<Pillar>, moving: int, orig: int, target: int)
    requires 0 <= moving < |rings|
    requires orig != target ==> |pillars| > 0
    ensures
      var v := Judge(rings, pillars, moving, orig, target);
      && (v == Legal <==>
            && DirectionOk(orig, target, |pillars|)
            && forall k :: IsTopOn(rings, pillars, moving, target, LegalityThreshold, k) ==>
                 SizeOk(rings[moving], rings[k], orig == target) && !Repels(rings[moving], rings[k]))
      && (v == SizeViolation <==>
            && DirectionOk(orig, target, |pillars|)
            && exists k :: IsTopOn(rings, pillars, moving, target, LegalityThreshold, k) &&
                 !SizeOk(rings[moving], rings[k], orig == target))
      && (v == ColorRepulsion <==>
            && DirectionOk(orig, target, |pillars|)
            && exists k :: IsTopOn(rings, pillars, moving, target, LegalityThreshold, k) &&
                 SizeOk(rings[moving], rings[k], orig == target) && Repels(rings[moving], rings[k]))
      && ((DirectionOk(orig, target, |pillars|) &&
           forall j :: !OtherOn(rings, pillars, moving, target, LegalityThreshold, j)) ==> v == Legal)
  {
    var top := TopOn(rings, pillars, moving, target, LegalityThreshold);
    if top != -1 {
      forall k | IsTopOn(rings, pillars, moving, target, LegalityThreshold, k) ensures k == top {
        TopOnUnique(rings, pillars, moving, target, LegalityThreshold, k, top);
      }
    }
  }

  /**
    For rings at rest at a settled angle the colour rule reads simply: a ring
    may not go onto a ring whose top face has the colour of its own top face.
   */
  lemma SettledRepulsion(mover: Torus, top: Torus)
    requires Settled(mover.flipAngle)
    ensures Repels(mover, top) <==> EffectiveTopColor(mover, None) == EffectiveTopColor(top, None)
  {
    SettledFlipSwapsFaces(mover);
  }

  /** A flip in place is never refused for direction or size; only the colour rule applies. */
  lemma InPlaceFlipOnlyColor(rings: seq<Torus>, pillars: seq<Pillar>, moving: int, p: int)
    requires 0 <= moving < |rings|
    ensures Judge(rings, pillars, moving, p, p) != NotClockwise
    ensures Judge(rings, pillars, moving, p, p) != SizeViolation
    ensures Judge(rings, pillars, moving, p, p) == ColorRepulsion <==>
              exists k :: IsTopOn(rings, pillars, moving, p, LegalityThreshold, k) && Repels(rings[moving], rings[k])
  {
    JudgeMeaning(rings, pillars, moving, p, p);
    var v := Judge(rings, pillars, moving, p, p);
    if v == ColorRepulsion {
      var k :| IsTopOn(rings, pillars, moving, p, LegalityThreshold, k) &&
               SizeOk(rings[moving], rings[k], true) && Repels(rings[moving], rings[k]);
    }
  }

  /** A ring of the same outer radius as the top ring passes the size rule. */
  lemma EqualRadiusPassesSize(rings: seq<Torus>, pillars: seq<Pillar>, moving: int, orig: int, target: int, k: int)
    requires 0 <= moving < |rings|
    requires orig != target ==> |pillars| > 0
    requires IsTopOn(rings, pillars, moving, target, LegalityThreshold, k)
    requires rings[moving].outer == rings[k].outer
    ensures Judge(rings, pillars, moving, orig, target) != SizeViolation
  {
    JudgeMeaning(rings, pillars, moving, orig, target);
    var v := Judge(rings, pillars, moving, orig, target);
    if v == SizeViolation {
      var k' :| IsTopOn(rings, pillars, moving, target, LegalityThreshold, k') &&
                !SizeOk(rings[moving], rings[k'], orig == target);
      TopOnUnique(rings, pillars, moving, target, LegalityThreshold, k, k');
    }
  }

  /** The top ring of a pillar does not depend on whether the moving ring is highlighted. */
  lemma TopOnIgnoresHighlight(rings: seq<Torus>, pillars: seq<Pillar>, moving: int, target: int, threshold: real, lit: bool)
    requires 0 <= moving < |rings|
    ensures
      var lifted := rings[moving := rings[moving].(highlighted := lit)];
      TopOn(lifted, pillars, moving, target, threshold) == TopOn(rings, pillars, moving, target, threshold)
  {
    var lifted := rings[moving := rings[moving].(highlighted := lit)];
    assert forall j :: 0 <= j < |rings| ==> lifted[j].pos == rings[j].pos;
    assert MapSeq(Height, lifted) == MapSeq(Height, rings);
    assert OthersOnMask(lifted, pillars, moving, target, threshold) ==
           OthersOnMask(rings, pillars, moving, target, threshold);
  }

  /** The rules after the top ring has been found: they read the two rings' radii and angles only. */
  function Decide(dirOk: bool, inPlace: bool, mover: Torus, top: Option<Torus>): Verdict {
    if !dirOk then NotClockwise
    else if top.None? then Legal
    else if !inPlace && mover.outer > top.value.outer then SizeViolation
    else if Repels(mover, top.value) then ColorRepulsion
    else Legal
  }

  function TopRing(rings: seq<Torus>, pillars: seq<Pillar>, moving: int, target: int): Option<Torus> {
    var top := TopOn(rings, pillars, moving, target, LegalityThreshold);
    if top == -1 then None else Some(rings[top])
  }

  lemma JudgeIsDecide(rings: seq<Torus>, pillars: seq<Pillar>, moving: int, orig: int, target: int)
    requires 0 <= moving < |rings|
    requires orig != target ==> |pillars| > 0
    ensures Judge(rings, pillars, moving, orig, target) ==
            Decide(DirectionOk(orig, target, |pillars|), orig == target, rings[moving], TopRing(rings, pillars, moving, target))
  {
  }

  /** The verdict does not depend on whether the moving ring is highlighted. */
  lemma JudgeIgnoresHighlight(rings: seq<Torus>, pillars: seq<Pillar>, moving: int, orig: int, target: int, lit: bool)
    requires 0 <= moving < |rings|
    requires orig != target ==> |pillars| > 0
    ensures
      var lifted := rings[moving := rings[moving].(highlighted := lit)];
      Judge(lifted, pillars, moving, orig, target) == Judge(rings, pillars, moving, orig, target)
  {
    var lifted := rings[moving := rings[moving].(highlighted := lit)];
    TopOnIgnoresHighlight(rings, pillars, moving, target, LegalityThreshold, lit);
    JudgeIsDecide(rings, pillars, moving, orig, target);
    JudgeIsDecide(lifted, pillars, moving, orig, target);
    var top := TopOn(rings, pillars, moving, target, LegalityThreshold);
    if top != -1 {
      assert lifted[top] == rings[top];
    }
    assert TopRing(lifted, pillars, moving, target) == TopRing(rings, pillars, moving, target);
    assert lifted[moving] == rings[moving].(highlighted := lit);
    DecideIgnoresHighlight(DirectionOk(orig, target, |pillars|), orig == target, rings[moving],
                           TopRing(rings, pillars, moving, target), lit);
  }

  lemma DecideIgnoresHighlight(dirOk: bool, inPlace: bool, mover: Torus, top: Option<Torus>, lit: bool)
    ensures Decide(dirOk, inPlace, mover.(highlighted := lit), top) == Decide(dirOk, inPlace, mover, top)
  {
    var lifted := mover.(highlighted := lit);
    assert lifted.flipAngle == mover.flipAngle && lifted.outer == mover.outer;
    if dirOk && top.Some? {
      assert Repels(lifted, top.value) == Repels(mover, top.value);
    }
  }

  /** Result of the legality query: the verdict as a boolean and the diagnostics it prints. */
  datatype Checked = Checked(ok: bool, messages: seq<string>)

  function Diagnostic(v: Verdict): string {
    match v
    case Legal => ""
    case NotClockwise => "Illegal move: Must move clockwise."
    case SizeViolation => "Illegal move: Cannot place larger ring on smaller one."
    case ColorRepulsion => "Illegal move: Color repulsion."
  }

  /**
    The game's legality query for moving ring `moving` onto pillar `target`,
    judged from the pillar the drag started on. The diagnostic line of a
    refusal is produced only when `checkOnly` is false; a highlight query is
    silent.
   */
  function IsMoveValid(g: GameState, moving: int, target: int, checkOnly: bool): (c: Checked)
    requires 0 <= moving < |g.rings|
    requires g.originalPillar != target ==> |g.pillars| > 0
    ensures c.ok <==> Judge(g.rings, g.pillars, moving, g.originalPillar, target) == Legal
    ensures checkOnly || c.ok ==> c.messages == []
    ensures !checkOnly && !c.ok ==>
              |c.messages| == 1 && c.messages[0] == Diagnostic(Judge(g.rings, g.pillars, moving, g.originalPillar, target))
    ensures !c.ok && !checkOnly ==> c.messages[0] != ""
  {
    var v := Judge(g.rings, g.pillars, moving, g.originalPillar, target);
    if v == Legal then Checked(true, [])
    else if checkOnly then Checked(false, [])
    else Checked(false, [Diagnostic(v)])
  }

  /**
    Height at which ring `moving` comes to rest on pillar `target`: its own
    inner radius on an empty pillar, otherwise just above the top ring there,
    clear of it by the two inner radii and a small gap. Occupancy here uses
    the default threshold.
   */
  function LandingY(rings: seq<Torus>, pillars: seq<Pillar>, moving: int, target: int): (y: real)
    requires 0 <= moving < |rings|
    ensures (forall j :: !OtherOn(rings, pillars, moving, target, OccupancyThreshold, j)) ==> y == rings[moving].inner
    ensures forall k :: IsTopOn(rings, pillars, moving, target, OccupancyThreshold, k) ==>
              y - rings[k].pos.y == rings[k].inner + rings[moving].inner + Epsilon
  {
    var top := TopOn(rings, pillars, moving, target, OccupancyThreshold);
    if top == -1 then rings[moving].inner
    else
      assert forall k :: IsTopOn(rings, pillars, moving, target, OccupancyThreshold, k) ==> k == top by {
        forall k | IsTopOn(rings, pillars, moving, target, OccupancyThreshold, k) ensures k == top {
          TopOnUnique(rings, pillars, moving, target, OccupancyThreshold, k, top);
        }
      }
      rings[top].pos.y + rings[top].inner + rings[moving].inner + Epsilon
  }

  /**
    A ring lands strictly above every other ring on the target pillar (by at
    least the gap), provided the radii are not negative.
   */
  lemma LandsAboveOthers(rings: seq<Torus>, pillars: seq<Pillar>, moving: int, target: int, j: int)
    requires 0 <= moving < |rings|
    requires forall i :: 0 <= i < |rings| ==> rings[i].inner >= 0.0
    requires OtherOn(rings, pillars, moving, target, OccupancyThreshold, j)
    ensures LandingY(rings, pillars, moving, target) >= rings[j].pos.y + Epsilon
  {
    var top := TopOn(rings, pillars, moving, target, OccupancyThreshold);
    assert IsTopOn(rings, pillars, moving, target, OccupancyThreshold, top);
  }
}

=== FILE: scene.dfy ===
/**
  The whole mutable state of a game: the pillars, the rings, the drag session
  fields, the progress counters and the error-message timer; and the starting
  position, with every ring stacked on the first pillar.
 */
module Scene {
  import opened Config
  import opened Geometry
  import opened Objects
  import opened Sorting
  import opened Utils

  /** A pointer position on screen, in whole pixels. */
  datatype Pixel = Pixel(x: int, y: int)

  /**
    The game state. `dragged` is the index of the held ring or -1; `dragging`
    says the pointer has travelled past the drag threshold since the press;
    `horizontal` says the held ring has been lifted to the float height and now
    follows the pointer across the scene.
   */
  datatype GameState = GameState(
    pillars: seq<Pillar>,
    rings: seq<Torus>,
    dragging: bool,
    dragged: int,
    dragOffset: Vec3,
    mouseDown: Pixel,
    originalPos: Vec3,
    originalPillar: int,
    lastMouse: Pixel,
    horizontal: bool,
    moveCount: int,
    won: bool,
    showError: bool,
    errorStart: real)

  /** The held ring, when there is one, is a real ring. */
  predicate DragIndexOk(g: GameState) {
    g.dragged == -1 || 0 <= g.dragged < |g.rings|
  }

  function NegSizeOuter(size: (real, real)): real { -size.1 }

  /**
    Stacks rings of the given sizes, from position `i` on, bottom to top at
    (px, pz): the first ring rests at its own inner radius, each later one at
    the previous height plus the previous and its own inner radius.
   */
  function StackFrom(sizes: seq<(real, real)>, px: real, pz: real, i: nat, lastY: real, lastInner: real): (r: seq<Torus>)
    requires i <= |sizes|
    ensures |r| == |sizes| - i
    ensures forall k :: 0 <= k < |r| ==>
              r[k] == NewTorus(sizes[i + k].0, sizes[i + k].1, Vec3(px, r[k].pos.y, pz))
    ensures |r| > 0 ==> r[0].pos.y == if i == 0 then sizes[i].0 else lastY + lastInner + sizes[i].0
    ensures forall k :: 0 < k < |r| ==> r[k].pos.y == r[k - 1].pos.y + r[k - 1].inner + r[k].inner
    decreases |sizes| - i
  {
    if i == |sizes| then []
    else
      var inner := sizes[i].0;
      var outer := sizes[i].1;
      var y := if i == 0 then inner else lastY + lastInner + inner;
      [NewTorus(inner, outer, Vec3(px, y, pz))] + StackFrom(sizes, px, pz, i + 1, y, inner)
  }

  /** A ring standing at (px, pz) as created: unflipped, idle and not highlighted. */
  predicate FreshAt(t: Torus, px: real, pz: real) {
    t.pos.x == px && t.pos.z == pz && t.state == Idle && t.flipAngle == 0.0 && !t.highlighted
  }

  /** Every freshly stacked ring stands at (px, pz), unflipped, idle and not highlighted. */
  lemma StackedRingsAtRest(sizes: seq<(real, real)>, px: real, pz: real)
    ensures forall t :: t in StackFrom(sizes, px, pz, 0, 0.0, 0.0) ==> FreshAt(t, px, pz)
  {
    var r := StackFrom(sizes, px, pz, 0, 0.0, 0.0);
    forall t | t in r ensures FreshAt(t, px, pz) {
      var k :| 0 <= k < |r| && r[k] == t;
    }
  }

  /** Sorting moves rings around but keeps each one as it is. */
  lemma SortKeepsFresh(s: seq<Torus>, px: real, pz: real)
    requires forall t :: t in s ==> FreshAt(t, px, pz)
    ensures forall k :: 0 <= k < |SortBy(s, Outer)| ==> FreshAt(SortBy(s, Outer)[k], px, pz)
  {
    SortByMembers(s, Outer);
  }

  /**
    The starting rings: the size classes sorted by decreasing outer radius,
    stacked on the first pillar, and the resulting list sorted by increasing
    outer radius (so index 0 is the smallest, topmost ring).
   */
  function CreateTori(pillars: seq<Pillar>): (r: seq<Torus>)
    requires |pillars| > 0
    ensures |r| == |TorusSizes|
    ensures SortedBy(r, Outer)
    ensures forall k :: 0 <= k < |r| ==> FreshAt(r[k], pillars[0].x, pillars[0].z)
  {
    var sizes := SortBy(TorusSizes, NegSizeOuter);
    var stacked := StackFrom(sizes, pillars[0].x, pillars[0].z, 0, 0.0, 0.0);
    StackedRingsAtRest(sizes, pillars[0].x, pillars[0].z);
    SortKeepsFresh(stacked, pillars[0].x, pillars[0].z);
    SortBy(stacked, Outer)
  }

  /** The size classes by decreasing outer radius. */
  lemma SizesLargestFirst()
    ensures SortBy(TorusSizes, NegSizeOuter) == [(0.7, 1.4), (0.6, 1.2), (0.5, 1.0)]
  {
    var small, middle, large := (0.5, 1.0), (0.6, 1.2), (0.7, 1.4);
    assert TorusSizes[1..] == [middle, large];
    assert TorusSizes[1..][1..] == [large];
    assert SortBy([large], NegSizeOuter) == [large];
    var one: seq<(real, real)> := [large];
    assert Insert(middle, one, NegSizeOuter) == one + Insert(middle, one[1..], NegSizeOuter);
    assert SortBy([middle, large], NegSizeOuter) == [large, middle];
    var two: seq<(real, real)> := [middle];
    assert Insert(small, two, NegSizeOuter) == two + Insert(small, two[1..], NegSizeOuter);
    assert Insert(small, [large, middle], NegSizeOuter) == [large] + Insert(small, [middle], NegSizeOuter) by {
      assert [large, middle][1..] == [middle];
    }
  }

  /** The stacked rings, bottom first: each rests on the one below without a gap. */
  lemma StackOfSizes(px: real, pz: real)
    ensures StackFrom([(0.7, 1.4), (0.6, 1.2), (0.5, 1.0)], px, pz, 0, 0.0, 0.0) == [
              NewTorus(0.7, 1.4, Vec3(px, 0.7, pz)),
              NewTorus(0.6, 1.2, Vec3(px, 2.0, pz)),
              NewTorus(0.5, 1.0, Vec3(px, 3.1, pz))]
  {
    var sizes := [(0.7, 1.4), (0.6, 1.2), (0.5, 1.0)];
    assert StackFrom(sizes, px, pz, 3, 3.1, 0.5) == [];
  }

  /** Sorting the stacked rings by outer radius puts the smallest, topmost ring first. */
  lemma SortedStack(s: Torus, m: Torus, l: Torus)
    requires s.outer == 1.0 && m.outer == 1.2 && l.outer == 1.4
    ensures SortBy([l, m, s], Outer) == [s, m, l]
  {
    assert [l, m, s][1..] == [m, s];
    assert [m, s][1..] == [s];
    assert SortBy([s], Outer) == [s];
    assert Insert(m, [s], Outer) == [s] + Insert(m, [], Outer) by {
      assert [s][1..] == [];
    }
    assert SortBy([m, s], Outer) == [s, m];
    assert Insert(l, [m], Outer) == [m, l] by {
      assert [m][1..] == [];
    }
    assert Insert(l, [s, m], Outer) == [s] + Insert(l, [m], Outer) by {
      assert [s, m][1..] == [m];
    }
  }

  /** The concrete starting stack: radii 1.0, 1.2, 1.4 (list order) at heights 3.1, 2.0, 0.7. */
  lemma InitialStack(pillars: seq<Pillar>)
    requires |pillars| > 0
    ensures
      var px, pz := pillars[0].x, pillars[0].z;
      CreateTori(pillars) == [
        NewTorus(0.5, 1.0, Vec3(px, 3.1, pz)),
        NewTorus(0.6, 1.2, Vec3(px, 2.0, pz)),
        NewTorus(0.7, 1.4, Vec3(px, 0.7, pz))]
  {
    var px, pz := pillars[0].x, pillars[0].z;
    SizesLargestFirst();
    StackOfSizes(px, pz);
    SortedStack(NewTorus(0.5, 1.0, Vec3(px, 3.1, pz)), NewTorus(0.6, 1.2, Vec3(px, 2.0, pz)),
                NewTorus(0.7, 1.4, Vec3(px, 0.7, pz)));
  }

  /** The state the game starts in: nothing held, no moves, not won, no message. */
  function InitialState(pillars: seq<Pillar>): (g: GameState)
    requires |pillars| > 0
    ensures g.pillars == pillars && g.rings == CreateTori(pillars)
    ensures g.dragged == -1 && !g.dragging && !g.horizontal
    ensures g.moveCount == 0 && !g.won && !g.showError
  {
    GameState(pillars, CreateTori(pillars), false, -1, Origin, Pixel(0, 0), Origin, -1,
              Pixel(0, 0), false, 0, false, false, 0.0)
  }
}

=== FILE: sorting.dfy ===
/**
  Python's stable `sorted(..., key=...)`, written as an insertion sort. A
  descending sort (`reverse=True`) is the same stable sort on the negated key.
 */
module Sorting {

  ghost predicate SortedBy<T>(s: seq<T>, key: T -> real) {
    forall i, j :: 0 <= i < j < |s| ==> key(s[i]) <= key(s[j])
  }

  /** Non-increasing order, the order of a descending sort of numbers. */
  ghost predicate NonIncreasing(s: seq<real>) {
    forall i, j :: 0 <= i < j < |s| ==> s[i] >= s[j]
  }

  function Neg(x: real): real { -x }

  function MapSeq<T, U>(f: T -> U, s: seq<T>): (r: seq<U>)
    ensures |r| == |s|
    ensures forall i :: 0 <= i < |s| ==> r[i] == f(s[i])
  {
    seq(|s|, i requires 0 <= i < |s| => f(s[i]))
  }

  /** Inserts `x` before the first element whose key is not smaller, which keeps the sort stable. */
  function Insert<T>(x: T, s: seq<T>, key: T -> real): (r: seq<T>)
    requires SortedBy(s, key)
    ensures SortedBy(r, key)
    ensures multiset(r) == multiset(s) + multiset{x}
    ensures |r| == |s| + 1
    ensures r[0] == x || (|s| > 0 && r[0] == s[0])
  {
    if |s| == 0 then [x]
    else if key(x) <= key(s[0]) then [x] + s
    else
      var rest := Insert(x, s[1..], key);
      assert s == [s[0]] + s[1..];
      [s[0]] + rest
  }

  function SortBy<T>(s: seq<T>, key: T -> real): (r: seq<T>)
    ensures SortedBy(r, key)
    ensures multiset(r) == multiset(s)
    ensures |r| == |s|
  {
    if |s| == 0 then []
    else
      assert s == [s[0]] + s[1..];
      Insert(s[0], SortBy(s[1..], key), key)
  }

  /** Sorting only rearranges: every entry of the result is an entry of the input. */
  lemma SortByMembers<T>(s: seq<T>, key: T -> real)
    ensures forall i :: 0 <= i < |SortBy(s, key)| ==> SortBy(s, key)[i] in s
  {
    var r := SortBy(s, key);
    forall i | 0 <= i < |r| ensures r[i] in s {
      assert r[i] in multiset(r);
    }
  }

  /** `x` alone when its key is `v`, nothing otherwise. */
  function Own<T>(x: T, key: T -> real, v: real): seq<T> {
    if key(x) == v then [x] else []
  }

  /** The entries of `s` whose key is `v`, in their order in `s`. */
  function KeyRun<T>(s: seq<T>, key: T -> real, v: real): (r: seq<T>)
    ensures forall i :: 0 <= i < |r| ==> key(r[i]) == v
    ensures |r| <= |s|
  {
    if |s| == 0 then [] else Own(s[0], key, v) + KeyRun(s[1..], key, v)
  }

  lemma KeyRunCons<T>(h: T, t: seq<T>, key: T -> real, v: real)
    ensures KeyRun([h] + t, key, v) == Own(h, key, v) + KeyRun(t, key, v)
  {
    assert ([h] + t)[0] == h && ([h] + t)[1..] == t;
  }

  /** An entry with a smaller key than `x` keeps its place in front of the run of `x`'s key. */
  lemma PassSmaller<T>(x: T, h: T, rest: seq<T>, t: seq<T>, key: T -> real, v: real)
    requires key(h) < key(x)
    requires KeyRun(rest, key, v) == Own(x, key, v) + KeyRun(t, key, v)
    ensures KeyRun([h] + rest, key, v) == Own(x, key, v) + KeyRun([h] + t, key, v)
  {
    KeyRunCons(h, rest, key, v);
    KeyRunCons(h, t, key, v);
    assert key(x) == v ==> key(h) != v;
    SwapEmpty(Own(h, key, v), Own(x, key, v), KeyRun(t, key, v));
  }

  lemma SwapEmpty<T>(a: seq<T>, b: seq<T>, c: seq<T>)
    requires a == [] || b == []
    ensures a + (b + c) == b + (a + c)
  {
    if a == [] {
      assert a + (b + c) == b + c && a + c == c;
    } else {
      assert b + c == c && b + (a + c) == a + c;
    }
  }

  /** Inserting `x` puts it in front of the entries with the same key and leaves every other run alone. */
  lemma {:induction false} InsertKeyRun<T>(x: T, s: seq<T>, key: T -> real, v: real)
    requires SortedBy(s, key)
    ensures KeyRun(Insert(x, s, key), key, v) == Own(x, key, v) + KeyRun(s, key, v)
    decreases |s|
  {
    var r := Insert(x, s, key);
    if |s| == 0 || key(x) <= key(s[0]) {
      assert r == [x] + s;
      KeyRunCons(x, s, key, v);
    } else {
      var rest := Insert(x, s[1..], key);
      assert r == [s[0]] + rest;
      assert s == [s[0]] + s[1..];
      InsertKeyRun(x, s[1..], key, v);
      PassSmaller(x, s[0], rest, s[1..], key, v);
    }
  }

  /**
    The sort is stable: for every key value, the entries with that key appear
    in the result in the same order as in the input.
   */
  lemma {:induction false} SortByStable<T>(s: seq<T>, key: T -> real, v: real)
    ensures KeyRun(SortBy(s, key), key, v) == KeyRun(s, key, v)
    decreases |s|
  {
    if |s| > 0 {
      SortByStable(s[1..], key, v);
      InsertKeyRun(s[0], SortBy(s[1..], key), key, v);
    }
  }

  lemma SortedByNegIsNonIncreasing(s: seq<real>)
    requires SortedBy(s, Neg)
    ensures NonIncreasing(s)
  {
    forall i, j | 0 <= i < j < |s| ensures s[i] >= s[j] {
      assert Neg(s[i]) <= Neg(s[j]);
    }
  }

  /** Removing one position of a sequence removes one occurrence from its multiset. */
  lemma MultisetRemove<T>(s: seq<T>, i: int)
    requires 0 <= i < |s|
    ensures multiset(s[..i] + s[i + 1..]) == multiset(s) - multiset{s[i]}
  {
    assert s == s[..i] + [s[i]] + s[i + 1..];
  }

  lemma MultisetTail<T>(s: seq<T>)
    requires |s| > 0
    ensures multiset(s[1..]) == multiset(s) - multiset{s[0]}
  {
    assert s == [s[0]] + s[1..];
  }

  /** Two non-increasing arrangements of the same non-empty multiset start with the same (largest) number. */
  lemma HeadsAgree(a: seq<real>, b: seq<real>)
    requires NonIncreasing(a) && NonIncreasing(b)
    requires multiset(a) == multiset(b) && |a| > 0
    ensures |b| > 0 && a[0] == b[0]
    ensures multiset(a[1..]) == multiset(b[1..])
  {
    assert |a| == |multiset(a)| == |multiset(b)| == |b|;
    assert a[0] in multiset(b);
    var i :| 0 <= i < |b| && b[i] == a[0];
    assert b[0] >= b[i];
    assert b[0] in multiset(a);
    var j :| 0 <= j < |a| && a[j] == b[0];
    assert a[0] >= a[j];
    MultisetTail(a);
    MultisetTail(b);
  }

  /** Two non-increasing arrangements of the same numbers are the same sequence. */
  lemma {:induction false} NonIncreasingPermutationUnique(a: seq<real>, b: seq<real>)
    requires NonIncreasing(a) && NonIncreasing(b)
    requires multiset(a) == multiset(b)
    ensures a == b
    decreases |a|
  {
    if |a| == 0 {
      assert |b| == |multiset(b)| == 0;
    } else {
      HeadsAgree(a, b);
      NonIncreasingPermutationUnique(a[1..], b[1..]);
      assert a == [a[0]] + a[1..];
      assert b == [b[0]] + b[1..];
    }
  }

  lemma MapSeqConcat<T, U>(f: T -> U, x: seq<T>, y: seq<T>)
    ensures MapSeq(f, x + y) == MapSeq(f, x) + MapSeq(f, y)
  {
  }

  /** The multiset of an image depends only on the multiset of the source. */
  lemma MultisetOfMapSeqSplit<T, U>(f: T -> U, s: seq<T>, i: int)
    requires 0 <= i < |s|
    ensures multiset(MapSeq(f, s)) == multiset(MapSeq(f, s[..i] + s[i + 1..])) + multiset{f(s[i])}
  {
    assert s == s[..i] + ([s[i]] + s[i + 1..]);
    MapSeqConcat(f, s[..i], [s[i]] + s[i + 1..]);
    MapSeqConcat(f, [s[i]], s[i + 1..]);
    MapSeqConcat(f, s[..i], s[i + 1..]);
    assert MapSeq(f, [s[i]]) == [f(s[i])];
  }

  lemma MultisetOfMapSeqHead<T, U>(f: T -> U, s: seq<T>)
    requires |s| > 0
    ensures multiset(MapSeq(f, s)) == multiset(MapSeq(f, s[1..])) + multiset{f(s[0])}
  {
    assert MapSeq(f, s) == [f(s[0])] + MapSeq(f, s[1..]);
  }

  /** Removing matching elements from both sides: equal images of the rests give equal images. */
  lemma MapSeqMatchHead<T, U>(f: T -> U, a: seq<T>, b: seq<T>, i: int)
    requires |a| > 0 && 0 <= i < |b| && b[i] == a[0]
    requires multiset(MapSeq(f, a[1..])) == multiset(MapSeq(f, b[..i] + b[i + 1..]))
    ensures multiset(MapSeq(f, a)) == multiset(MapSeq(f, b))
  {
    MultisetOfMapSeqHead(f, a);
    MultisetOfMapSeqSplit(f, b, i);
  }

  /** Mapping a function over two permutations of each other gives permutations of each other. */
  lemma {:induction false} MapSeqPreservesPermutation<T, U>(f: T -> U, a: seq<T>, b: seq<T>)
    requires multiset(a) == multiset(b)
    ensures multiset(MapSeq(f, a)) == multiset(MapSeq(f, b))
    decreases |a|
  {
    if |a| == 0 {
      assert |b| == |multiset(b)| == 0;
    } else {
      assert a[0] in multiset(b);
      var i :| 0 <= i < |b| && b[i] == a[0];
      MultisetTail(a);
      MultisetRemove(b, i);
      MapSeqPreservesPermutation(f, a[1..], b[..i] + b[i + 1..]);
      MapSeqMatchHead(f, a, b, i);
    }
  }

  /**
    Sorting respects any relation under which related elements have the same
    key: sorting two pointwise related sequences yields pointwise related results.
   */
  lemma {:induction false} InsertRespects<T>(x1: T, s1: seq<T>, x2: T, s2: seq<T>, key: T -> real, rel: (T, T) -> bool)
    requires forall u, v :: rel(u, v) ==> key(u) == key(v)
    requires SortedBy(s1, key) && SortedBy(s2, key)
    requires rel(x1, x2) && |s1| == |s2|
    requires forall i :: 0 <= i < |s1| ==> rel(s1[i], s2[i])
    ensures |Insert(x1, s1, key)| == |Insert(x2, s2, key)|
    ensures forall i :: 0 <= i < |s1| + 1 ==> rel(Insert(x1, s1, key)[i], Insert(x2, s2, key)[i])
    decreases |s1|
  {
    var r1, r2 := Insert(x1, s1, key), Insert(x2, s2, key);
    assert key(x1) == key(x2);
    if |s1| == 0 {
      assert r1 == [x1] && r2 == [x2];
    } else {
      assert rel(s1[0], s2[0]) && key(s1[0]) == key(s2[0]);
      if key(x1) <= key(s1[0]) {
        assert r1 == [x1] + s1 && r2 == [x2] + s2;
        ConsPointwise(x1, x2, s1, s2, rel);
      } else {
        var t1, t2 := Insert(x1, s1[1..], key), Insert(x2, s2[1..], key);
        assert r1 == [s1[0]] + t1 && r2 == [s2[0]] + t2;
        assert forall i :: 0 <= i < |s1[1..]| ==> rel(s1[1..][i], s2[1..][i]);
        InsertRespects(x1, s1[1..], x2, s2[1..], key, rel);
        ConsPointwise(s1[0], s2[0], t1, t2, rel);
      }
    }
  }

  /** Prepending related elements to pointwise related sequences keeps them pointwise related. */
  lemma ConsPointwise<T>(a: T, b: T, xs: seq<T>, ys: seq<T>, rel: (T, T) -> bool)
    requires rel(a, b) && |xs| == |ys|
    requires forall i :: 0 <= i < |xs| ==> rel(xs[i], ys[i])
    ensures forall i :: 0 <= i < |xs| + 1 ==> rel(([a] + xs)[i], ([b] + ys)[i])
  {
    forall i | 0 <= i < |xs| + 1 ensures rel(([a] + xs)[i], ([b] + ys)[i]) {
      if i > 0 {
        assert ([a] + xs)[i] == xs[i - 1] && ([b] + ys)[i] == ys[i - 1];
      }
    }
  }

  lemma {:induction false} SortByRespects<T>(s1: seq<T>, s2: seq<T>, key: T -> real, rel: (T, T) -> bool)
    requires forall u, v :: rel(u, v) ==> key(u) == key(v)
    requires |s1| == |s2|
    requires forall i :: 0 <= i < |s1| ==> rel(s1[i], s2[i])
    ensures forall i :: 0 <= i < |s1| ==> rel(SortBy(s1, key)[i], SortBy(s2, key)[i])
    decreases |s1|
  {
    if |s1| > 0 {
      SortByRespects(s1[1..], s2[1..], key, rel);
      InsertRespects(s1[0], SortBy(s1[1..], key), s2[0], SortBy(s2[1..], key), key, rel);
    }
  }
}

=== FILE: utils.dfy ===
/**
  Pillar occupancy and the win condition. A ring has no stored pillar: the
  pillar it stands on is recomputed from its (x, z) coordinates each time.
 */
module Utils {
  import opened Config
  import opened Geometry
  import opened Objects
  import opened Sorting

  /** The point (x, z) lies strictly within `threshold` of the pillar's centre. */
  predicate NearPillar(p: Pillar, x: real, z: real, threshold: real) {
    NormBelow(DistSqXZ(x, z, p.x, p.z), threshold)
  }

  function PillarIndexFrom(x: real, z: real, pillars: seq<Pillar>, threshold: real, i: nat): (r: int)
    requires i <= |pillars|
    ensures r == -1 || (i <= r < |pillars| && NearPillar(pillars[r], x, z, threshold))
    ensures r == -1 <==> forall j :: i <= j < |pillars| ==> !NearPillar(pillars[j], x, z, threshold)
    ensures r != -1 ==> forall j :: i <= j < r ==> !NearPillar(pillars[j], x, z, threshold)
    decreases |pillars| - i
  {
    if i == |pillars| then -1
    else if NearPillar(pillars[i], x, z, threshold) then i
    else PillarIndexFrom(x, z, pillars, threshold, i + 1)
  }

  /**
    The pillar a point belongs to: the FIRST pillar in list order whose centre
    is strictly closer than `threshold`, or -1 when there is none.
   */
  function PillarIndexAt(x: real, z: real, pillars: seq<Pillar>, threshold: real): (r: int)
    ensures -1 <= r < |pillars|
    ensures r == -1 <==> forall j :: 0 <= j < |pillars| ==> !NearPillar(pillars[j], x, z, threshold)
    ensures r != -1 ==> NearPillar(pillars[r], x, z, threshold)
    ensures r != -1 ==> forall j :: 0 <= j < r ==> !NearPillar(pillars[j], x, z, threshold)
  {
    PillarIndexFrom(x, z, pillars, threshold, 0)
  }

  /** The pillar a ring stands on, judged from its horizontal position. */
  function RingPillar(t: Torus, pillars: seq<Pillar>, threshold: real): int {
    PillarIndexAt(t.pos.x, t.pos.z, pillars, threshold)
  }

  /** Pillar centres at least twice the threshold apart: the occupancy discs do not overlap. */
  ghost predicate Separated(pillars: seq<Pillar>, threshold: real) {
    forall i, j :: 0 <= i < j < |pillars| ==>
      DistSqXZ(pillars[i].x, pillars[i].z, pillars[j].x, pillars[j].z) >= 4.0 * (threshold * threshold)
  }

  lemma SquareNonNegative(x: real)
    ensures x * x >= 0.0
  {
    if x < 0.0 {
      assert x * x == (-x) * (-x);
    }
  }

  /** The squared triangle inequality on a line: (p - q)^2 <= 2(x - p)^2 + 2(x - q)^2. */
  lemma TriangleSq(p: real, q: real, x: real)
    ensures (p - q) * (p - q) <= 2.0 * ((x - p) * (x - p)) + 2.0 * ((x - q) * (x - q))
  {
    SquareNonNegative(2.0 * x - p - q);
    assert 2.0 * ((x - p) * (x - p)) + 2.0 * ((x - q) * (x - q)) - (p - q) * (p - q)
        == (2.0 * x - p - q) * (2.0 * x - p - q);
  }

  /** Two centres a point is near to are less than twice the threshold apart. */
  lemma NearBothBound(pa: Pillar, pb: Pillar, x: real, z: real, threshold: real)
    requires NearPillar(pa, x, z, threshold) && NearPillar(pb, x, z, threshold)
    ensures DistSqXZ(pa.x, pa.z, pb.x, pb.z) < 4.0 * (threshold * threshold)
  {
    TriangleSq(pa.x, pb.x, x);
    TriangleSq(pa.z, pb.z, z);
    var t2 := threshold * threshold;
    assert DistSqXZ(x, z, pa.x, pa.z) < t2 && DistSqXZ(x, z, pb.x, pb.z) < t2;
  }

  /** With separated pillars no point is near two of them. */
  lemma AtMostOneNearPillar(pillars: seq<Pillar>, threshold: real, x: real, z: real, i: int, j: int)
    requires Separated(pillars, threshold)
    requires 0 <= i < |pillars| && 0 <= j < |pillars|
    requires NearPillar(pillars[i], x, z, threshold) && NearPillar(pillars[j], x, z, threshold)
    ensures i == j
  {
    if i < j {
      NearBothBound(pillars[i], pillars[j], x, z, threshold);
    } else if j < i {
      NearBothBound(pillars[j], pillars[i], x, z, threshold);
    }
  }

  /**
    With separated pillars the first-match rule never decides anything: the
    lookup returns THE pillar the point is near, so the order of the pillar
    list is irrelevant.
   */
  lemma SeparatedLookupIsOrderFree(pillars: seq<Pillar>, threshold: real, x: real, z: real, k: int)
    requires Separated(pillars, threshold)
    requires 0 <= k < |pillars| && NearPillar(pillars[k], x, z, threshold)
    ensures PillarIndexAt(x, z, pillars, threshold) == k
  {
    var r := PillarIndexAt(x, z, pillars, threshold);
    AtMostOneNearPillar(pillars, threshold, x, z, r, k);
  }

  // ---------------------------------------------------------------- the win condition

  function Height(t: Torus): real { t.pos.y }

  function Outer(t: Torus): real { t.outer }

  /** The rings standing on pillar `target` (default occupancy radius), in list order. */
  function RingsOnPillar(rings: seq<Torus>, pillars: seq<Pillar>, target: int): (r: seq<Torus>)
    ensures |r| <= |rings|
    ensures |r| == |rings| <==> forall i :: 0 <= i < |rings| ==> RingPillar(rings[i], pillars, OccupancyThreshold) == target
    ensures |r| == |rings| ==> r == rings
  {
    if |rings| == 0 then []
    else
      var rest := RingsOnPillar(rings[1..], pillars, target);
      assert forall i :: 1 <= i < |rings| ==> rings[i] == rings[1..][i - 1];
      if RingPillar(rings[0], pillars, OccupancyThreshold) == target then
        assert rings == [rings[0]] + rings[1..];
        [rings[0]] + rest
      else
        rest
  }

  /**
    The win check: every ring stands on pillar `target`, and bottom to top their
    outer radii match the radii of all rings sorted from largest to smallest,
    each to within the win tolerance.
   */
  function CheckWin(rings: seq<Torus>, pillars: seq<Pillar>, target: int): (won: bool)
    ensures won ==> forall i :: 0 <= i < |rings| ==> RingPillar(rings[i], pillars, OccupancyThreshold) == target
  {
    var onTarget := RingsOnPillar(rings, pillars, target);
    if |onTarget| != |rings| then false
    else
      var byHeight := SortBy(onTarget, Height);
      var expected := SortBy(MapSeq(Outer, rings), Neg);
      forall i :: 0 <= i < |byHeight| ==> IsClose(byHeight[i].outer, expected[i], WinTolerance)
  }

  /** Lower rings are never smaller: the stack has its largest ring at the bottom. */
  ghost predicate LargestAtBottom(rings: seq<Torus>) {
    forall i, j :: 0 <= i < |rings| && 0 <= j < |rings| && rings[i].pos.y <= rings[j].pos.y ==>
      rings[i].outer >= rings[j].outer
  }

  lemma SortedByHeightOuterNonIncreasing(rings: seq<Torus>)
    requires LargestAtBottom(rings)
    ensures NonIncreasing(MapSeq(Outer, SortBy(rings, Height)))
  {
    var s := SortBy(rings, Height);
    forall k, l | 0 <= k < l < |s| ensures s[k].outer >= s[l].outer {
      assert Height(s[k]) <= Height(s[l]);
      assert s[k] in multiset(rings) && s[l] in multiset(rings);
      var i :| 0 <= i < |rings| && rings[i] == s[k];
      var j :| 0 <= j < |rings| && rings[j] == s[l];
    }
  }

  /** A stack on the target pillar with its largest ring at the bottom is a win. */
  lemma WinWhenLargestAtBottom(rings: seq<Torus>, pillars: seq<Pillar>, target: int)
    requires forall i :: 0 <= i < |rings| ==> RingPillar(rings[i], pillars, OccupancyThreshold) == target
    requires LargestAtBottom(rings)
    ensures CheckWin(rings, pillars, target)
  {
    var byHeight := SortBy(rings, Height);
    var expected := SortBy(MapSeq(Outer, rings), Neg);
    SortedByHeightOuterNonIncreasing(rings);
    SortedByNegIsNonIncreasing(expected);
    MapSeqPreservesPermutation(Outer, byHeight, rings);
    NonIncreasingPermutationUnique(MapSeq(Outer, byHeight), expected);
    forall i | 0 <= i < |byHeight| ensures IsClose(byHeight[i].outer, expected[i], WinTolerance) {
      assert byHeight[i].outer == MapSeq(Outer, byHeight)[i];
    }
  }

  /** Outer radii that are close in the win check's sense are in fact equal. */
  ghost predicate RadiiDistinguishable(rings: seq<Torus>) {
    forall i, j :: 0 <= i < |rings| && 0 <= j < |rings| && IsClose(rings[i].outer, rings[j].outer, WinTolerance) ==>
      rings[i].outer == rings[j].outer
  }

  /**
    When the size classes can be told apart, a successful win check matches the
    radii bottom to top EXACTLY against the descending list.
   */
  lemma WinMatchesExactly(rings: seq<Torus>, pillars: seq<Pillar>, target: int)
    requires RadiiDistinguishable(rings)
    requires CheckWin(rings, pillars, target)
    ensures forall m :: 0 <= m < |rings| ==>
              SortBy(rings, Height)[m].outer == SortBy(MapSeq(Outer, rings), Neg)[m]
  {
    var byHeight := SortBy(rings, Height);
    var expected := SortBy(MapSeq(Outer, rings), Neg);
    WinIsCloseEverywhere(rings, pillars, target);
    forall m | 0 <= m < |rings| ensures byHeight[m].outer == expected[m] {
      CloseRadiusMatches(rings, m);
    }
  }

  /** A won check compares the whole stack, sorted by height, with the descending radii. */
  lemma WinIsCloseEverywhere(rings: seq<Torus>, pillars: seq<Pillar>, target: int)
    requires CheckWin(rings, pillars, target)
    ensures forall m :: 0 <= m < |rings| ==>
              IsClose(SortBy(rings, Height)[m].outer, SortBy(MapSeq(Outer, rings), Neg)[m], WinTolerance)
  {
    assert SortBy(rings, Height) == SortBy(RingsOnPillar(rings, pillars, target), Height);
  }

  /** With distinguishable radii, a sorted ring close to the expected radius has exactly that radius. */
  lemma CloseRadiusMatches(rings: seq<Torus>, m: int)
    requires RadiiDistinguishable(rings)
    requires 0 <= m < |rings|
    requires IsClose(SortBy(rings, Height)[m].outer, SortBy(MapSeq(Outer, rings), Neg)[m], WinTolerance)
    ensures SortBy(rings, Height)[m].outer == SortBy(MapSeq(Outer, rings), Neg)[m]
  {
    var byHeight, expected := SortBy(rings, Height), SortBy(MapSeq(Outer, rings), Neg);
    assert byHeight[m] in multiset(rings);
    var i :| 0 <= i < |rings| && rings[i] == byHeight[m];
    ExpectedIsSomeRadius(rings, expected, m);
    var j :| 0 <= j < |rings| && rings[j].outer == expected[m];
  }

  /**
    When the size classes can be told apart, a smaller ring strictly below a
    larger one makes the win check fail.
   */
  lemma WinRejectsMisorderedStack(rings: seq<Torus>, pillars: seq<Pillar>, target: int, i: int, j: int)
    requires RadiiDistinguishable(rings)
    requires 0 <= i < |rings| && 0 <= j < |rings|
    requires rings[i].pos.y < rings[j].pos.y && rings[i].outer < rings[j].outer
    ensures !CheckWin(rings, pillars, target)
  {
    if CheckWin(rings, pillars, target) {
      var byHeight := SortBy(rings, Height);
      var expected := SortBy(MapSeq(Outer, rings), Neg);
      WinMatchesExactly(rings, pillars, target);
      SortedByNegIsNonIncreasing(expected);
      var k := PositionInPermutation(byHeight, rings, i);
      var l := PositionInPermutation(byHeight, rings, j);
      LowerComesFirst(byHeight, k, l);
    }
  }

  /** An element of a sequence occurs somewhere in any permutation of it. */
  lemma PositionInPermutation<T>(s: seq<T>, t: seq<T>, i: int) returns (k: int)
    requires multiset(s) == multiset(t) && 0 <= i < |t|
    ensures 0 <= k < |s| && s[k] == t[i]
  {
    assert t[i] in multiset(s);
    k :| 0 <= k < |s| && s[k] == t[i];
  }

  /** In a sequence sorted by height, a strictly lower ring comes strictly earlier. */
  lemma LowerComesFirst(s: seq<Torus>, k: int, l: int)
    requires SortedBy(s, Height)
    requires 0 <= k < |s| && 0 <= l < |s| && s[k].pos.y < s[l].pos.y
    ensures k < l
  {
    assert Height(s[k]) < Height(s[l]);
  }

  /** Every entry of the descending radius list is the outer radius of some ring. */
  lemma ExpectedIsSomeRadius(rings: seq<Torus>, expected: seq<real>, k: int)
    requires expected == SortBy(MapSeq(Outer, rings), Neg)
    requires 0 <= k < |expected|
    ensures exists j :: 0 <= j < |rings| && rings[j].outer == expected[k]
  {
    assert expected[k] in multiset(MapSeq(Outer, rings));
    var j :| 0 <= j < |rings| && MapSeq(Outer, rings)[j] == expected[k];
  }

  /** Two rings that the win check cannot tell apart: same position, same outer radius. */
  predicate SameShape(u: Torus, v: Torus) {
    u.pos == v.pos && u.outer == v.outer
  }

  lemma ConsRespects(x: Torus, y: Torus, xs: seq<Torus>, ys: seq<Torus>)
    requires SameShape(x, y) && |xs| == |ys| && forall i :: 0 <= i < |xs| ==> SameShape(xs[i], ys[i])
    ensures forall i :: 0 <= i < |xs| + 1 ==> SameShape(([x] + xs)[i], ([y] + ys)[i])
  {
  }

  lemma {:induction false} RingsOnPillarRespects(a: seq<Torus>, b: seq<Torus>, pillars: seq<Pillar>, target: int)
    requires |a| == |b| && forall i :: 0 <= i < |a| ==> SameShape(a[i], b[i])
    ensures |RingsOnPillar(a, pillars, target)| == |RingsOnPillar(b, pillars, target)|
    ensures forall i :: 0 <= i < |RingsOnPillar(a, pillars, target)| ==>
              SameShape(RingsOnPillar(a, pillars, target)[i], RingsOnPillar(b, pillars, target)[i])
    decreases |a|
  {
    if |a| > 0 {
      assert forall i :: 0 <= i < |a| - 1 ==> a[1..][i] == a[i + 1] && b[1..][i] == b[i + 1];
      RingsOnPillarRespects(a[1..], b[1..], pillars, target);
      var ra, rb := RingsOnPillar(a[1..], pillars, target), RingsOnPillar(b[1..], pillars, target);
      var fa, fb := RingsOnPillar(a, pillars, target), RingsOnPillar(b, pillars, target);
      assert SameShape(a[0], b[0]);
      if RingPillar(a[0], pillars, OccupancyThreshold) == target {
        assert fa == [a[0]] + ra && fb == [b[0]] + rb;
        ConsRespects(a[0], b[0], ra, rb);
      } else {
        assert fa == ra && fb == rb;
      }
    }
  }

  /** A two-ring stack on a single pillar, the ring of outer radius `lower` below the one of `upper`. */
  function TwoRingStack(c: Pillar, lower: real, upper: real): seq<Torus> {
    [NewTorus(0.5, lower, Vec3(c.x, 0.5, c.z)), NewTorus(0.5, upper, Vec3(c.x, 1.6, c.z))]
  }

  /** The win check's inputs for that stack: both rings on the pillar, height order, descending radii. */
  lemma TwoRingStackSorted(c: Pillar, lower: real, upper: real)
    requires lower < upper
    ensures var rings := TwoRingStack(c, lower, upper);
      && RingsOnPillar(rings, [c], 0) == rings
      && SortBy(rings, Height) == rings
      && SortBy(MapSeq(Outer, rings), Neg) == [upper, lower]
  {
    TwoRingStackOnPillar(c, lower, upper);
    TwoRingStackByHeight(c, lower, upper);
    TwoRingRadii(c, lower, upper);
    DescendingPair(lower, upper);
  }

  lemma TwoRingRadii(c: Pillar, lower: real, upper: real)
    ensures MapSeq(Outer, TwoRingStack(c, lower, upper)) == [lower, upper]
  {
    var radii := MapSeq(Outer, TwoRingStack(c, lower, upper));
    assert radii[0] == lower && radii[1] == upper;
  }

  lemma TwoRingStackOnPillar(c: Pillar, lower: real, upper: real)
    ensures var rings := TwoRingStack(c, lower, upper);
      RingsOnPillar(rings, [c], 0) == rings
  {
    var rings := TwoRingStack(c, lower, upper);
    assert DistSqXZ(c.x, c.z, c.x, c.z) == 0.0;
    assert RingPillar(rings[0], [c], OccupancyThreshold) == 0;
    assert RingPillar(rings[1], [c], OccupancyThreshold) == 0;
  }

  lemma TwoRingStackByHeight(c: Pillar, lower: real, upper: real)
    ensures var rings := TwoRingStack(c, lower, upper);
      SortBy(rings, Height) == rings
  {
    var rings := TwoRingStack(c, lower, upper);
    assert rings[1..] == [rings[1]];
    assert SortBy([rings[1]], Height) == [rings[1]];
    assert Insert(rings[0], [rings[1]], Height) == rings;
  }

  lemma DescendingPair(lower: real, upper: real)
    requires lower < upper
    ensures SortBy([lower, upper], Neg) == [upper, lower]
  {
    assert [lower, upper][1..] == [upper];
    assert SortBy([upper], Neg) == [upper];
    var one: seq<real> := [upper];
    assert Insert(lower, one, Neg) == one + Insert(lower, one[1..], Neg);
  }

  /**
    The radius comparison carries the 0.01 tolerance: radii 1.0 and 1.005 are
    taken as equal, so the smaller ring may sit at the bottom and the stack
    still wins.
   */
  lemma WinWithinTolerance(c: Pillar)
    ensures CheckWin(TwoRingStack(c, 1.0, 1.005), [c], 0)
  {
    TwoRingStackSorted(c, 1.0, 1.005);
  }

  /** Radii 1.0 and 1.02 differ by more than the tolerance: the smaller ring at the bottom is no win. */
  lemma NoWinBeyondTolerance(c: Pillar)
    ensures !CheckWin(TwoRingStack(c, 1.0, 1.02), [c], 0)
  {
    TwoRingStackSorted(c, 1.0, 1.02);
    assert !IsClose(1.0, 1.02, WinTolerance);
  }

  /**
    The win check reads nothing but positions and outer radii: flip angles,
    highlight flags, inner radii and animation states do not affect it.
   */
  lemma WinIgnoresAnimation(a: seq<Torus>, b: seq<Torus>, pillars: seq<Pillar>, target: int)
    requires |a| == |b| && forall i :: 0 <= i < |a| ==> SameShape(a[i], b[i])
    ensures CheckWin(a, pillars, target) == CheckWin(b, pillars, target)
  {
    var oa, ob := RingsOnPillar(a, pillars, target), RingsOnPillar(b, pillars, target);
    RingsOnPillarRespects(a, b, pillars, target);
    SortByRespects(oa, ob, Height, SameShape);
    assert MapSeq(Outer, a) == MapSeq(Outer, b);
  }
}

=== FILE: wrappers.dfy ===
/** The optional value used where the game stores "nothing yet" or skips a computation. */
module Wrappers {

  datatype Option<+T> = None | Some(value: T)
}
